=== FILE: README.md ===
# Hotel back end: rooms, guests and their bookings

This project models the core of a small hotel back end. A PostgreSQL
database holds two tables: Rooms, and Guests. Each guest row carries its stay
(check-in and check-out dates) and the room it is booked into. On top of the
tables sit:

- two services, which create, read, update and delete rows;
- two repositories, which stage changes on a unit of work and answer the
  booking queries: rooms by floor, availability over a date interval, guests
  of a room, and guests current on a day;
- a guest data-transfer object with its validation attributes and derived
  display values (full name, stay length, age);
- two REST controllers, which project rooms with their occupancy and map
  each service outcome onto an HTTP status.

The model is functional. The database is an immutable `Store`: a map from
id to room, a map from id to guest, and one identity counter per table.
Every operation is a pure function from a store (and a request) to an
outcome and a new store, so no query changes the store. The module layout
follows the program:

| module | file | models |
|---|---|---|
| `Text` | text.dfy | decimal rendering of ids in exception messages |
| `Listing` | listing.dfy | table listings by ascending key; `Where` filters |
| `Calendar` | calendar.dfy | `DateTime` as a tick count; dates of birth as (year, month, day) |
| `Entities` | entities.dfy | the `Room` and `Guest` rows |
| `Database` | database.dfy | the tables, the database's constraints, the unit of work and `SaveChanges` |
| `RoomService`, `GuestService` | room_service.dfy, guest_service.dfy | the services |
| `RoomRepository`, `GuestRepository` | room_repository.dfy, guest_repository.dfy | the repositories |
| `GuestDtos` | guest_dto.dfy | the guest DTO |
| `Http` | http.dfy | action results |
| `RoomController`, `GuestController` | room_controller.dfy, guest_controller.dfy | the controllers |
| `Scenarios` | scenarios.dfy | concrete cases at the edges of the date tests |

The database constraints come from the context's model configuration and
the PostgreSQL schema:

- unique keys;
- `varchar(200)`, `varchar(400)` and `varchar(600)` for first name, last
  name and address;
- the foreign key from `Guests.RoomId` to `Rooms.Id`, restrict on delete.

Together they form the store invariant `Database.Consistent`, and every
operation preserves it. EF Core does not check data annotations when it
saves. So a guest row that breaks a constraint reaches the database, which
refuses it; `SaveChanges` then throws, and the tables stay as they were. The
model states this as `Database.SaveChanges`: the staged tables commit exactly
when no staged change is doomed and the staged tables are consistent.
Identity values drawn by a failed insert stay consumed, because a PostgreSQL
sequence is never rolled back.

Two behaviours of the code are worth stating plainly:

- The room listing counts a guest as current when their check-out is not
  before today; check-in is not tested. A booking that starts in the future
  therefore already marks the room occupied (`Scenarios.FutureBookingCountsAsOccupied`).
  The guest repository's "current guests" does test check-in, so the two
  agree only when no booking of the room lies in the future
  (`RoomController.ProjectionCoversCurrentGuests`).
- An id supplied in the body of a create request is ignored by the
  controllers, which build the entity with Id 0. At the service layer, a
  non-zero Id is inserted explicitly. A room insert then succeeds exactly
  when that key is free; a guest insert also needs its names and address to
  fit their columns and its room to exist.

## Model

| member | source | states |
|---|---|---|
| `Text.NatToString` | Service/Services/RoomService.cs:47 | the decimal text of an id has only digits, no leading zero and reads back as the id; zero is written "0" |
| `Text.IntToString` | Service/Services/RoomService.cs:61 | `$"{id}"` is an integer literal that reads back as the id, sign included |
| `Text.IntToStringInjective` | Service/Services/RoomService.cs:66 | distinct ids give distinct texts, so a message names exactly one room |
| `Text.ConcatContains` | Service/Services/RoomService.cs:66 | each piece of a concatenated message occurs in the message |
| `Listing.SortedKeys` | Service/Services/RoomService.cs:23 | a table's keys listed once each, strictly ascending |
| `Listing.Filter` | Data/Repositories/RoomRepository.cs:87 | `Where` keeps exactly the elements that pass, and no more than it was given |
| `Listing.FilterDistinct` | Data/Repositories/RoomRepository.cs:87 | `Where` repeats no element the listing did not repeat |
| `Listing.FilterAscending` | Data/Repositories/RoomRepository.cs:105-107 | filtering a listing that is ordered by a key keeps it ordered by that key |
| `Calendar.DaysInMonth` | Service/DTOs/GuestDTO.cs:54 | a month has 28 to 31 days, 29 exactly for February of a leap year |
| `Calendar.AddYears` | Service/DTOs/GuestDTO.cs:54 | the same month and day n years on, with 29 February clamped to the 28th in a common year; the result is a valid date |
| `Database.Consistent` | Data/AppDbContext.cs:30-45 | in a store the database accepts, every guest row fits the Guests column widths and names a stored room, whatever key the row is under |
| `Database.Referenced` | Service/Services/RoomService.cs:64 | `Guests.Any(g => g.RoomId == id)` holds exactly when some stored guest row names the room |
| `Database.AllRooms` | Service/Services/RoomService.cs:21-24 | `Rooms.ToList()` has every room exactly once, by ascending id |
| `Database.AllGuests` | Service/Services/GuestService.cs:21-24 | `Guests.ToList()` has every guest exactly once, by ascending id |
| `Database.FindRoom` | Service/Services/RoomService.cs:26-29 | `FirstOrDefault(r => r.Id == id)` is the stored room, or null when none has that id |
| `Database.FindGuest` | Service/Services/GuestService.cs:26-29 | `FirstOrDefault(g => g.Id == id)` is the stored guest, or null when none has that id |
| `Database.SaveChanges` | Data/AppDbContext.cs:30-45 | commits exactly when no change is doomed and the keys, lengths and foreign key hold; otherwise the tables are unchanged and identity values stay consumed |
| `Database.StageAddRoom` | Data/Repositories/RoomRepository.cs:35-41 | an insert takes the next identity value for Id 0, otherwise its own Id; a key in use dooms the save |
| `Database.StageAddGuest` | Data/Repositories/GuestRepository.cs:35-41 | the same for a guest |
| `Database.StageReplaceRoom` | Data/Repositories/RoomRepository.cs:43-54 | an update overwrites every column of that one row; no such row dooms the save |
| `Database.StageReplaceGuest` | Data/Repositories/GuestRepository.cs:43-54 | the same for a guest |
| `Database.StageRemoveRoom` | Data/Repositories/RoomRepository.cs:56-67 | a delete removes only that row; no such row dooms the save |
| `Database.StageRemoveGuest` | Data/Repositories/GuestRepository.cs:56-67 | the same for a guest |
| `Database.Commit` | Service/Services/RoomService.cs:37 | a service's single change commits exactly when the database accepts it, and otherwise leaves the tables as they were |
| `RoomService.GetAllRooms` | Service/Services/RoomService.cs:21-24 | exactly the stored rooms, each once |
| `RoomService.GetRoomById` | Service/Services/RoomService.cs:26-29 | the stored room for a present id, null for an absent one |
| `RoomService.HasGuestsMessageIdentifiesRoom` | Service/Services/RoomService.cs:66 | two has-guests refusals are the same text only when they are about the same room id |
| `RoomService.HasGuestsMessageNamesRoom` | Service/Services/RoomService.cs:66 | the refusal message contains the room's id and the reason " because it has associated guests." |
| `RoomService.CreateRoom` | Service/Services/RoomService.cs:31-38 | null is ArgumentNull("room") and changes nothing; otherwise the room goes in under the next identity value (or its own non-zero Id), and the insert succeeds exactly when that key is not yet taken; on success exactly that one room is added, on failure the tables are unchanged; guests and the guest identity counter are unchanged either way |
| `RoomService.UpdateRoom` | Service/Services/RoomService.cs:40-55 | null is ArgumentNull; an unknown Id is NotFound and changes nothing; otherwise only Number, Floor and Type of that one room change |
| `RoomService.DeleteRoom` | Service/Services/RoomService.cs:57-70 | an unknown id is NotFound; a room any guest references is refused with the has-guests message and nothing is removed; otherwise exactly that room goes, a later lookup finds nothing, and the foreign key still holds |
| `RoomService.RemoveUnreferenced` | Service/Services/RoomService.cs:63-69 | removing a room no guest names keeps the foreign key and every other constraint, and a later lookup finds nothing |
| `GuestService.GetAllGuests` | Service/Services/GuestService.cs:21-24 | exactly the stored guests, each once |
| `GuestService.GetGuestById` | Service/Services/GuestService.cs:26-29 | the stored guest for a present id, null for an absent one |
| `GuestService.CreateGuest` | Service/Services/GuestService.cs:31-38 | null is ArgumentNull("guest") and adds nothing; otherwise one guest with all eight fields is added under a fresh id exactly when its names and address fit and its room exists, and nothing else changes, the room identity counter included |
| `GuestService.Overwrite` | Service/Services/GuestService.cs:50-57 | the eight assignments keep the Id and, for the same Id, yield the supplied guest |
| `GuestService.ReplaceAdmissible` | Service/Services/GuestService.cs:59 | replacing a row keeps the database consistent exactly when the new row fits its columns and names a stored room |
| `GuestService.UpdateGuest` | Service/Services/GuestService.cs:40-60 | null is ArgumentNull; an unknown Id is NotFound and changes nothing; otherwise all eight fields of that guest are replaced when the database accepts the row, and nothing else changes |
| `GuestService.DeleteGuest` | Service/Services/GuestService.cs:62-70 | an unknown id is NotFound; otherwise exactly that guest is removed and a later lookup finds nothing |
| `GuestService.RemoveKeepsConsistent` | Service/Services/GuestService.cs:62-70 | removing a guest keeps every constraint, and a later lookup finds nothing |
| `RoomRepository.GetAll` | Data/Repositories/RoomRepository.cs:21-26 | exactly the committed rooms, each once (as many entries as rows), by ascending id |
| `RoomRepository.GetById` | Data/Repositories/RoomRepository.cs:28-33 | the committed room for a present id, null otherwise |
| `RoomRepository.Add` | Data/Repositories/RoomRepository.cs:35-41 | null is ArgumentNull and stages nothing; otherwise an insert is staged |
| `RoomRepository.Update` | Data/Repositories/RoomRepository.cs:43-54 | null is ArgumentNull and stages nothing; an entity with Id 0 fails with the tracker's temporary-key exception while its INSERT stays staged; any other Id stages an update of that row |
| `RoomRepository.UpdateOfNewRoomInserts` | Data/Repositories/RoomRepository.cs:43-54 | after `Update` of an Id-0 room reports that exception, `SaveChanges` still inserts the room under the next identity value |
| `RoomRepository.Delete` | Data/Repositories/RoomRepository.cs:56-67 | null is ArgumentNull and stages nothing; an untracked entity with Id 0 is only forgotten, so nothing is staged; otherwise a delete of that row is staged |
| `RoomRepository.DeleteById` | Data/Repositories/RoomRepository.cs:69-76 | an id with no committed row changes nothing; a committed row not yet staged for deletion gets its delete staged; a row already staged for deletion (its tracked entry is Deleted) is left as it is |
| `RoomRepository.DeleteByIdTwice` | Data/Repositories/RoomRepository.cs:56-76 | deleting by id twice in one unit of work stages the same as deleting once, so the save removes the row once and succeeds exactly when the table without it is consistent |
| `RoomRepository.GetRoomsByFloor` | Data/Repositories/RoomRepository.cs:84-90 | exactly the rooms on that floor, by ascending id |
| `RoomRepository.IsRoomAvailable` | Data/Repositories/RoomRepository.cs:110-116 | available exactly when no guest that `GetGuestsByRoomId` lists for the room has a stay overlapping the closed interval |
| `RoomRepository.OccupiedRoomIds` | Data/Repositories/RoomRepository.cs:98-102 | a room id is in the set exactly when `IsRoomAvailable` rejects that room for the interval |
| `RoomRepository.GetAvailableRooms` | Data/Repositories/RoomRepository.cs:92-108 | a room is listed exactly when it is stored and `IsRoomAvailable` holds for it; no more rooms than stored, in their original order, none twice |
| `RoomRepository.AvailableWithin` | Data/Repositories/RoomRepository.cs:110-116 | a room free over an interval is free over every interval inside it |
| `RoomRepository.CheckOutDayBlocks` | Data/Repositories/RoomRepository.cs:113-115 | a stay that ends exactly when the request starts still blocks the room |
| `GuestRepository.GetAll` | Data/Repositories/GuestRepository.cs:21-26 | exactly the committed guests, each once (as many entries as rows), by ascending id |
| `GuestRepository.GetById` | Data/Repositories/GuestRepository.cs:28-33 | the committed guest for a present id, null otherwise |
| `GuestRepository.Add` | Data/Repositories/GuestRepository.cs:35-41 | null is ArgumentNull and stages nothing; otherwise an insert is staged |
| `GuestRepository.Update` | Data/Repositories/GuestRepository.cs:43-54 | null is ArgumentNull and stages nothing; an entity with Id 0 fails with the tracker's temporary-key exception while its INSERT stays staged; any other Id stages an update of that row |
| `GuestRepository.UpdateOfNewGuestInserts` | Data/Repositories/GuestRepository.cs:43-54 | after `Update` of a valid Id-0 guest reports that exception, `SaveChanges` still inserts the guest under the next identity value |
| `GuestRepository.Delete` | Data/Repositories/GuestRepository.cs:56-67 | null is ArgumentNull and stages nothing; an untracked entity with Id 0 is only forgotten, so nothing is staged; otherwise a delete of that row is staged |
| `GuestRepository.DeleteById` | Data/Repositories/GuestRepository.cs:69-76 | the same for a guest: nothing for an id with no committed row, a staged delete for a live row, nothing more for a row already staged for deletion |
| `GuestRepository.DeleteByIdTwice` | Data/Repositories/GuestRepository.cs:56-76 | deleting a guest by id twice in one unit of work stages the same as deleting it once |
| `GuestRepository.GetGuestsByRoomId` | Data/Repositories/GuestRepository.cs:84-89 | exactly the guests booked into that room |
| `GuestRepository.GetCurrentGuests` | Data/Repositories/GuestRepository.cs:91-98 | exactly the guests with check-in on or before today and check-out on or after it |
| `GuestRepository.RoomHasGuests` | Data/Repositories/GuestRepository.cs:100-103 | true exactly when `GetGuestsByRoomId` is non-empty |
| `GuestRepository.ListedExactlyWhenReferenced` | Data/Repositories/GuestRepository.cs:84-103 | the by-room listing is non-empty exactly when some guest names the room |
| `GuestRepository.CurrentGuestOccupiesRoom` | Data/Repositories/GuestRepository.cs:91-103 | a current guest's room has guests |
| `GuestDtos.FullName` | Service/DTOs/GuestDTO.cs:45 | the first name, a single space, then the last name |
| `GuestDtos.WholeDays` | Service/DTOs/GuestDTO.cs:47 | whole days in a tick count, truncated toward zero |
| `GuestDtos.StayDuration` | Service/DTOs/GuestDTO.cs:47 | whole days of the stay, truncated toward zero: for a forward stay the largest d with d days no longer than it, for a backward one the smallest d (at most 0) with d days no shorter than it; so negative exactly when check-out lies a full day or more before check-in |
| `GuestDtos.CalculateAge` | Service/DTOs/GuestDTO.cs:50-56 | the number of the last birthday on or before today: that birthday has come and the next has not; non-negative when the birth date is not after today |
| `GuestDtos.Age` | Service/DTOs/GuestDTO.cs:46 | the guest's age on `today`: their last birthday on or before today has come and the next has not; non-negative when the birth date is not after today |
| `GuestDtos.AgeNeverDecreases` | Service/DTOs/GuestDTO.cs:50-56 | as today advances, the age never decreases |
| `GuestDtos.ValidationErrors` | Service/DTOs/GuestDTO.cs:14-42 | no errors exactly when every attribute holds; each length message appears exactly when its field is too long |
| `GuestDtos.ToDto` | TrialFinal/Controllers/GuestController.cs:64-75 | all nine fields are copied unchanged |
| `GuestDtos.ToEntity` | TrialFinal/Controllers/GuestController.cs:136-147 | the entity built for an update maps back to the same DTO |
| `GuestDtos.ToNewGuest` | TrialFinal/Controllers/GuestController.cs:91-101 | the eight non-key fields are copied and the Id is 0; a valid DTO fits the columns |
| `GuestDtos.EntityRoundTrip` | TrialFinal/Controllers/GuestController.cs:64-75 | entity to DTO and back loses nothing |
| `Http.ErrorText` | TrialFinal/Controllers/GuestController.cs:112-115 | a failure's message, and no message exactly for success |
| `GuestController.ToDtos` | TrialFinal/Controllers/GuestController.cs:29-48 | one DTO per guest in the same order, and a DTO is listed exactly when its entity is |
| `GuestController.DtosListed` | TrialFinal/Controllers/GuestController.cs:32-46 | every guest's DTO appears in the listing |
| `GuestController.GetGuests` | TrialFinal/Controllers/GuestController.cs:27-49 | 200 with exactly the stored guests as DTOs |
| `GuestController.GetGuest` | TrialFinal/Controllers/GuestController.cs:55-78 | 404 exactly for an absent id; otherwise 200 with the guest's DTO |
| `GuestController.CreateGuest` | TrialFinal/Controllers/GuestController.cs:84-116 | a null body is 400; otherwise 201 with the generated id (the next guest identity value) written into the body exactly when the service commits, else 400 with its message and the tables unchanged; one guest identity value is drawn either way |
| `GuestController.UpdateGuest` | TrialFinal/Controllers/GuestController.cs:123-158 | 400 for a null body or an id mismatch, 404 for an absent id, otherwise 204 with every field replaced, or 400 with the message when the database refuses the row |
| `GuestController.DeleteGuest` | TrialFinal/Controllers/GuestController.cs:164-181 | 404 for an absent id; otherwise 204 with exactly that guest removed |
| `GuestController.ValidBodyIsCreated` | TrialFinal/Controllers/GuestController.cs:84-110 | a valid body naming a stored room is created under the next identity value |
| `RoomController.Project` | TrialFinal/Controllers/RoomController.cs:37-59 | the room's own fields; the listed guests are exactly the DTOs of its guests with check-out not before today, each once and in id order when the guests are; the count is the number listed; occupied exactly when the count is positive |
| `RoomController.ProjectionListsExactly` | TrialFinal/Controllers/RoomController.cs:37-58 | each listed DTO is the DTO of a guest of the room that passes the filter, every such guest is listed, and none twice when the guests are distinct |
| `RoomController.GetRooms` | TrialFinal/Controllers/RoomController.cs:29-65 | 200 with one projection per stored room: every stored room's projection is listed, nothing else, in ascending room id |
| `RoomController.EveryRoomProjected` | TrialFinal/Controllers/RoomController.cs:35-62 | the loop over all rooms projects each stored room, in ascending id |
| `RoomController.GetRoom` | TrialFinal/Controllers/RoomController.cs:71-106 | 404 exactly for an absent id; otherwise 200 with the room's projection |
| `RoomController.CreateRoom` | TrialFinal/Controllers/RoomController.cs:112-142 | a null body is 400; otherwise 201 with the generated id, not occupied, no guests, exactly when the key is free, else 400 with the message; one room identity value is drawn either way |
| `RoomController.UpdateRoom` | TrialFinal/Controllers/RoomController.cs:149-179 | 400 for a null body or an id mismatch, checked first; 404 for an absent id; otherwise 204 with Number, Floor and Type replaced |
| `RoomController.DeleteRoom` | TrialFinal/Controllers/RoomController.cs:186-207 | 404 for an absent id; 400 with the service's has-guests message when a guest names the room; otherwise 204 with the room removed |
| `RoomController.ProjectionCoversCurrentGuests` | TrialFinal/Controllers/RoomController.cs:37 | every current guest of the room is projected; the two agree when no booking of the room starts after today |
| `Scenarios.OneBooking` | Data/AppDbContext.cs:30-57 | a store with one room and one guest booked into it is consistent |
| `Scenarios.SharedEndPointBlocks` | Data/Repositories/RoomRepository.cs:110-116 | a stay from 10 to 15 blocks a request from 15 to 20 and leaves one from 16 to 20 free |
| `Scenarios.FutureBookingCountsAsOccupied` | TrialFinal/Controllers/RoomController.cs:37-45 | a booking starting after today marks the room occupied but is not a current guest |

## Left out

- Database I/O, connections and the PostgreSQL specifics beyond its constraints: the store is a value, and a query reads it.
- EF change tracking (`Attach`, `Local.Any`, entry states, `Include` eager loading) is not modelled as such: a unit of work holds the tables as they will be after the save. Where an entry state changes what happens, the model follows it for a Deleted row (`DeleteById`) and an Id-0 entity (`Update`); the cases it does not follow are listed below.
- RoomRepository.Update: when an instance with the same Id is tracked and not Deleted (including an Id-0 entity already tracked as new), the source does nothing with the entity it is given (a different instance's values are dropped, and no exception is thrown). When the Id is tracked as Deleted, `Local` does not list it, so `Attach` of a different instance throws EF's identity-conflict `InvalidOperationException` and the staged DELETE still commits. In both cases the model stages the overwrite with the given values (for Id 0, the insert and the temporary-key exception); after a staged delete that overwrite dooms the save.
- GuestRepository.Update: the same as for rooms.
- RoomRepository.Delete: the entity is taken to be untracked. Any entity added earlier in the same unit of work, whatever its Id, is tracked as new, and removing it cancels that insert; the model does not track instances, so for such an entity it stages a DELETE (or, for Id 0, nothing) and leaves the staged insert in place.
- GuestRepository.Delete: the same as for rooms.
- NOT NULL columns: strings in the model are never null, so the NOT NULL constraints on Number, Type, FirstName, LastName, Address and Nationality are never broken. A null string, which the database refuses at save time, is not modelled.
- Navigation collections (`Room.Guests`, `Guest.Room`): derived from `Guest.roomId` by query and not stored.
- Row order: without ORDER BY the database chooses the order; the model lists every table by ascending id.
- 32-bit integers: ids, floors and identity counters are unbounded, so the identity overflow after 2^31 - 1 inserts is not modelled.
- String lengths count Dafny characters, not UTF-16 code units. `char.IsWhiteSpace` is modelled for the Latin-1 range only.
- Dates of birth keep only their calendar date; a time of day in the stored value is not modelled.
- The wall clock: `DateTime.Today` is a parameter, a tick count for the controllers and the repository and a calendar date for `CalculateAge`.
- The automatic model-state check that `[ApiController]` runs before an action: `GuestDtos.ValidationErrors` states it, and the controller actions are modelled from the point where the body reached them.
- RoomDTO's validation attributes and `GetRoomInfo`: these are string formatting and attribute metadata with no logic of their own.
- Exception messages: the services' own texts and EF's two save-failure texts are kept in English; localised variants are not modelled.
- Concurrency: the race between an availability check and a booking has no guard in the code and is not modelled.
- Host wiring (`Program.cs`: dependency injection, Swagger, CORS) and the interfaces, which hold no logic.
- The tests' database set-up and tear-down, which are I/O.

=== FILE: calendar.dfy ===
/**
 * Time as the hotel back end sees it.  A `DateTime` used for check-in and
 * check-out is an integer tick count (100 ns units since 0001-01-01), totally
 * ordered by `<=`.  A date of birth, which only matters through its calendar
 * date, is a proleptic Gregorian (year, month, day) triple.
 */
module Calendar {

  /** `TimeSpan.TicksPerDay`. */
  const TicksPerDay: int := 864_000_000_000

  /** `DateTime.MaxValue.Ticks`, the last tick of 9999-12-31. */
  const MaxTicks: int := 3_155_378_975_999_999_999

  /** A `DateTime` value. */
  type Ticks = t: int | 0 <= t <= MaxTicks

  datatype Date = Date(year: int, month: int, day: int)

  predicate IsLeapYear(year: int) {
    year % 4 == 0 && (year % 100 != 0 || year % 400 == 0)
  }

  /** `DateTime.DaysInMonth`. */
  function DaysInMonth(year: int, month: int): (n: int)
    requires 1 <= month <= 12
    ensures 28 <= n <= 31
    ensures n == 29 <==> month == 2 && IsLeapYear(year)
  {
    if month == 2 then (if IsLeapYear(year) then 29 else 28)
    else if month == 4 || month == 6 || month == 9 || month == 11 then 30
    else 31
  }

  /** The dates a `DateTime` can hold: years 1 to 9999. */
  predicate ValidDate(d: Date) {
    && 1 <= d.year <= 9999
    && 1 <= d.month <= 12
    && 1 <= d.day <= DaysInMonth(d.year, d.month)
  }

  /** A calendar date a `DateTime` can hold. */
  type CivilDate = d: Date | ValidDate(d) witness Date(1, 1, 1)

  /** Chronological order of dates: year, then month, then day. */
  predicate Before(a: Date, b: Date) {
    || a.year < b.year
    || (a.year == b.year && a.month < b.month)
    || (a.year == b.year && a.month == b.month && a.day < b.day)
  }

  predicate NotAfter(a: Date, b: Date) {
    !Before(b, a)
  }

  /**
   * `DateTime.AddYears`: the same month and day `years` later, except that
   * 29 February becomes 28 February when the target year is not a leap year.
   */
  function AddYears(d: Date, years: int): (r: Date)
    requires ValidDate(d)
    requires 1 <= d.year + years <= 9999
    ensures ValidDate(r)
    ensures r.year == d.year + years && r.month == d.month
    ensures r.day == d.day || (d.month == 2 && d.day == 29 && r.day == 28 && !IsLeapYear(r.year))
  {
    var year := d.year + years;
    var last := DaysInMonth(year, d.month);
    Date(year, d.month, if d.day <= last then d.day else last)
  }
}

=== FILE: database.dfy ===
/**
 * The relational store behind the back end: the Rooms and Guests tables,
 * the constraints the database enforces on them, and a unit of work
 * (`Session`) whose staged changes reach the tables only when
 * `SaveChanges` commits them.
 */
module Database {
  import opened Entities
  import opened Listing

  /** Column widths of Guests (varchar(n) counts characters). */
  const FirstNameMaxLength: int := 200
  const LastNameMaxLength: int := 400
  const AddressMaxLength: int := 600

  /**
   * Both tables, keyed by primary key, and the next value of each table's
   * identity sequence.
   */
  datatype Store = Store(rooms: map<int, Room>, guests: map<int, Guest>, nextRoomId: int, nextGuestId: int)

  /**
   * How an operation ended; a failure carries what its exception would
   * report.  `NotFound` and `Conflict` are both `InvalidOperationException`s:
   * the first for a missing row, the second for a refused change.
   * `TemporaryKey` is the `InvalidOperationException` the change tracker
   * throws when an entity of that type still holding a temporary key is
   * marked Modified.
   */
  datatype Outcome =
    | Success
    | ArgumentNull(paramName: string)
    | NotFound(message: string)
    | Conflict(message: string)
    | TemporaryKey(entity: string)
    | SaveFailed(message: string)

  /** An outcome together with the value the operation produced. */
  datatype Reply<T> = Reply(outcome: Outcome, value: T)

  /** An outcome, the store after the operation and the key the inserted row received. */
  datatype Inserted = Inserted(outcome: Outcome, store: Store, id: int)

  /** `DbUpdateException.Message` when a statement violates a constraint. */
  const ConstraintMessage: string := "An error occurred while saving the entity changes. See the inner exception for details."

  /** `DbUpdateConcurrencyException.Message` when an UPDATE or DELETE matches no row. */
  const StaleMessage: string := "The database operation was expected to affect 1 row(s), but actually affected 0 row(s); data may have been modified or deleted since entities were loaded. "
    + "See https://go.microsoft.com/fwlink/?LinkId=527962 for information on understanding and handling optimistic concurrency exceptions."

  /**
   * `InvalidOperationException.Message` when an entity whose generated key
   * was never set (Id 0, so the tracker gave it a temporary key and the
   * state Added) is switched to Modified.
   */
  function TemporaryKeyMessage(entity: string): string {
    "The property '" + entity + ".Id' has a temporary value while attempting to change the entity's state to 'Modified'. "
    + "Either set a permanent value explicitly, or ensure that the database is configured to generate values for this property."
  }

  /** The `Message` of the exception a failed operation throws. */
  function Message(o: Outcome): string
    requires !o.Success?
  {
    match o
    case ArgumentNull(p) => "Value cannot be null. (Parameter '" + p + "')"
    case NotFound(m) => m
    case Conflict(m) => m
    case TemporaryKey(e) => TemporaryKeyMessage(e)
    case SaveFailed(m) => m
  }

  /** The primary key of every row is the key it is stored under. */
  predicate KeysMatch(s: Store) {
    && (forall k | k in s.rooms :: s.rooms[k].id == k)
    && (forall k | k in s.guests :: s.guests[k].id == k)
  }

  /** The varchar limits of the Guests table. */
  predicate FitsColumns(g: Guest) {
    && |g.firstName| <= FirstNameMaxLength
    && |g.lastName| <= LastNameMaxLength
    && |g.address| <= AddressMaxLength
  }

  /**
   * What the database enforces on values the model can hold: unique keys,
   * column widths and the foreign key Guests.RoomId -> Rooms.Id (restrict on
   * delete).  Strings here are never null, so the NOT NULL constraints are
   * met by every row.
   */
  predicate Consistent(s: Store): (b: bool)
    ensures b ==> forall g | g in s.guests.Values :: FitsColumns(g) && g.roomId in s.rooms
  {
    GuestRowsKeyed(s);
    && KeysMatch(s)
    && (forall k | k in s.guests :: FitsColumns(s.guests[k]))
    && (forall k | k in s.guests :: s.guests[k].roomId in s.rooms)
  }

  /** A listing of the keys of `m`, read through `m`, lists every value of `m`. */
  lemma ValuesListed<V(!new)>(m: map<int, V>, ks: seq<int>, vs: seq<V>)
    requires forall k :: k in ks <==> k in m
    requires |vs| == |ks|
    requires forall i | 0 <= i < |ks| :: ks[i] in m && vs[i] == m[ks[i]]
    ensures forall v :: v in vs <==> v in m.Values
  {
    forall v | v in m.Values
      ensures v in vs
    {
      if forall k | k in m :: m[k] != v {
        assert false;
      }
      var k :| k in m && m[k] == v;
      var i :| 0 <= i < |ks| && ks[i] == k;
      assert vs[i] == v;
    }
  }

  /** `_context.Rooms.ToList()`: every room exactly once, by ascending id. */
  function AllRooms(s: Store): (rs: seq<Room>)
    ensures |rs| == |s.rooms|
    ensures forall r :: r in rs <==> r in s.rooms.Values
    ensures KeysMatch(s) ==> Ascending(rs, RoomKey)
  {
    var ks := SortedKeys(s.rooms.Keys);
    var rs := seq(|ks|, i requires 0 <= i < |ks| => s.rooms[ks[i]]);
    ValuesListed(s.rooms, ks, rs);
    rs
  }

  /** `_context.Guests.ToList()`: every guest exactly once, by ascending id. */
  function AllGuests(s: Store): (gs: seq<Guest>)
    ensures |gs| == |s.guests|
    ensures forall g :: g in gs <==> g in s.guests.Values
    ensures KeysMatch(s) ==> Ascending(gs, GuestKey)
  {
    var ks := SortedKeys(s.guests.Keys);
    var gs := seq(|ks|, i requires 0 <= i < |ks| => s.guests[ks[i]]);
    ValuesListed(s.guests, ks, gs);
    gs
  }

  function FirstOrNone<T>(xs: seq<T>): (r: Option<T>)
    ensures r.None? <==> |xs| == 0
    ensures r.Some? ==> r.value == xs[0]
  {
    if |xs| == 0 then None else Some(xs[0])
  }

  /** `_context.Rooms.FirstOrDefault(r => r.Id == id)`: the stored room, or null when there is none. */
  function FindRoom(s: Store, id: int): (r: Option<Room>)
    ensures KeysMatch(s) ==> r == (if id in s.rooms then Some(s.rooms[id]) else None)
  {
    var hits := Filter(AllRooms(s), (room: Room) => room.id == id);
    assert KeysMatch(s) && id in s.rooms ==> s.rooms[id] in hits;
    FirstOrNone(hits)
  }

  /** `_context.Guests.FirstOrDefault(g => g.Id == id)`: the stored guest, or null when there is none. */
  function FindGuest(s: Store, id: int): (r: Option<Guest>)
    ensures KeysMatch(s) ==> r == (if id in s.guests then Some(s.guests[id]) else None)
  {
    var hits := Filter(AllGuests(s), (guest: Guest) => guest.id == id);
    assert KeysMatch(s) && id in s.guests ==> s.guests[id] in hits;
    FirstOrNone(hits)
  }

  /**
   * `_context.Guests.Any(g => g.RoomId == roomId)`: some stored guest row
   * names the room, whatever key it is stored under.
   */
  predicate Referenced(s: Store, roomId: int): (b: bool)
    ensures b <==> exists g | g in s.guests.Values :: g.roomId == roomId
  {
    GuestRowsKeyed(s);
    exists k | k in s.guests :: s.guests[k].roomId == roomId
  }

  /** Every guest row is stored under some key. */
  lemma GuestRowsKeyed(s: Store)
    ensures forall g | g in s.guests.Values :: exists k | k in s.guests :: s.guests[k] == g
  {
    forall g | g in s.guests.Values
      ensures exists k | k in s.guests :: s.guests[k] == g
    {
      if forall k | k in s.guests :: s.guests[k] != g {
        assert false;
      }
    }
  }


  /**
   * A unit of work: the committed tables, the tables as they will be if the
   * staged changes commit, and the first staged change the database is
   * certain to refuse whatever the constraints (a duplicate key, or an
   * UPDATE/DELETE of a row that does not exist).
   */
  datatype Session = Session(db: Store, staged: Store, fault: Option<string>)

  function Open(db: Store): (sess: Session)
    ensures sess.db == db && sess.staged == db && sess.fault.None?
  {
    Session(db, db, None)
  }

  function Doom(sess: Session, message: string): (r: Session)
    ensures r.db == sess.db && r.staged == sess.staged && r.fault.Some?
    ensures sess.fault.Some? ==> r.fault == sess.fault
  {
    if sess.fault.Some? then sess else sess.(fault := Some(message))
  }

  /**
   * `SaveChanges`: commit the staged tables when the database accepts them;
   * otherwise the tables stay as they were.  Identity values drawn by staged
   * inserts stay consumed either way, because PostgreSQL never rolls a
   * sequence back.
   */
  function SaveChanges(sess: Session): (r: Reply<Session>)
    ensures r.outcome.Success? || r.outcome.SaveFailed?
    ensures r.outcome.Success? <==> sess.fault.None? && Consistent(sess.staged)
    ensures r.outcome.Success? ==> r.value.db == sess.staged && r.value.staged == sess.staged
    ensures !r.outcome.Success? ==>
      && r.value.db.rooms == sess.db.rooms
      && r.value.db.guests == sess.db.guests
      && r.value.db.nextRoomId == sess.staged.nextRoomId
      && r.value.db.nextGuestId == sess.staged.nextGuestId
    ensures sess.fault.Some? ==> r.outcome == SaveFailed(sess.fault.value)
  {
    var burnt := sess.db.(nextRoomId := sess.staged.nextRoomId, nextGuestId := sess.staged.nextGuestId);
    if sess.fault.Some? then Reply(SaveFailed(sess.fault.value), sess.(db := burnt))
    else if !Consistent(sess.staged) then Reply(SaveFailed(ConstraintMessage), sess.(db := burnt))
    else Reply(Success, Session(sess.staged, sess.staged, None))
  }

  /** The key an inserted room gets: the next identity value when its Id is 0, its own Id otherwise. */
  function RoomKeyOnInsert(s: Store, r: Room): int {
    if r.id == 0 then s.nextRoomId else r.id
  }

  function GuestKeyOnInsert(s: Store, g: Guest): int {
    if g.id == 0 then s.nextGuestId else g.id
  }

  /** `Rooms.Add(room)`: stage an INSERT; a key already in use dooms the save. */
  function StageAddRoom(sess: Session, r: Room): (out: Session)
    ensures out.db == sess.db
    ensures out.staged.guests == sess.staged.guests
    ensures out.staged.nextGuestId == sess.staged.nextGuestId
    ensures out.staged.nextRoomId == sess.staged.nextRoomId + (if r.id == 0 then 1 else 0)
    ensures var key := RoomKeyOnInsert(sess.staged, r);
      if key in sess.staged.rooms then out.staged.rooms == sess.staged.rooms && out.fault.Some?
      else out.staged.rooms == sess.staged.rooms[key := r.(id := key)] && out.fault == sess.fault
  {
    var st := sess.staged;
    var key := RoomKeyOnInsert(st, r);
    var counted := st.(nextRoomId := if r.id == 0 then st.nextRoomId + 1 else st.nextRoomId);
    if key in st.rooms then Doom(sess.(staged := counted), ConstraintMessage)
    else sess.(staged := counted.(rooms := st.rooms[key := r.(id := key)]))
  }

  function StageAddGuest(sess: Session, g: Guest): (out: Session)
    ensures out.db == sess.db
    ensures out.staged.rooms == sess.staged.rooms
    ensures out.staged.nextRoomId == sess.staged.nextRoomId
    ensures out.staged.nextGuestId == sess.staged.nextGuestId + (if g.id == 0 then 1 else 0)
    ensures var key := GuestKeyOnInsert(sess.staged, g);
      if key in sess.staged.guests then out.staged.guests == sess.staged.guests && out.fault.Some?
      else out.staged.guests == sess.staged.guests[key := g.(id := key)] && out.fault == sess.fault
  {
    var st := sess.staged;
    var key := GuestKeyOnInsert(st, g);
    var counted := st.(nextGuestId := if g.id == 0 then st.nextGuestId + 1 else st.nextGuestId);
    if key in st.guests then Doom(sess.(staged := counted), ConstraintMessage)
    else sess.(staged := counted.(guests := st.guests[key := g.(id := key)]))
  }

  /** An UPDATE of every column of the room with `r`'s Id; no such row dooms the save. */
  function StageReplaceRoom(sess: Session, r: Room): (out: Session)
    ensures out.db == sess.db
    ensures r.id in sess.staged.rooms ==> out.staged == sess.staged.(rooms := sess.staged.rooms[r.id := r]) && out.fault == sess.fault
    ensures r.id !in sess.staged.rooms ==> out.staged == sess.staged && out.fault.Some?
  {
    if r.id in sess.staged.rooms then sess.(staged := sess.staged.(rooms := sess.staged.rooms[r.id := r]))
    else Doom(sess, StaleMessage)
  }

  function StageReplaceGuest(sess: Session, g: Guest): (out: Session)
    ensures out.db == sess.db
    ensures g.id in sess.staged.guests ==> out.staged == sess.staged.(guests := sess.staged.guests[g.id := g]) && out.fault == sess.fault
    ensures g.id !in sess.staged.guests ==> out.staged == sess.staged && out.fault.Some?
  {
    if g.id in sess.staged.guests then sess.(staged := sess.staged.(guests := sess.staged.guests[g.id := g]))
    else Doom(sess, StaleMessage)
  }

  /** A DELETE of the room with key `id`; no such row dooms the save. */
  function StageRemoveRoom(sess: Session, id: int): (out: Session)
    ensures out.db == sess.db
    ensures id in sess.staged.rooms ==> out.staged == sess.staged.(rooms := sess.staged.rooms - {id}) && out.fault == sess.fault
    ensures id !in sess.staged.rooms ==> out.staged == sess.staged && out.fault.Some?
  {
    if id in sess.staged.rooms then sess.(staged := sess.staged.(rooms := sess.staged.rooms - {id}))
    else Doom(sess, StaleMessage)
  }

  function StageRemoveGuest(sess: Session, id: int): (out: Session)
    ensures out.db == sess.db
    ensures id in sess.staged.guests ==> out.staged == sess.staged.(guests := sess.staged.guests - {id}) && out.fault == sess.fault
    ensures id !in sess.staged.guests ==> out.staged == sess.staged && out.fault.Some?
  {
    if id in sess.staged.guests then sess.(staged := sess.staged.(guests := sess.staged.guests - {id}))
    else Doom(sess, StaleMessage)
  }

  /** A single staged change followed by `SaveChanges`, as every service operation does. */
  function Commit(sess: Session): (r: Reply<Store>)
    ensures r.outcome.Success? <==> sess.fault.None? && Consistent(sess.staged)
    ensures r.outcome.Success? ==> r.value == sess.staged
    ensures !r.outcome.Success? ==> r.outcome.SaveFailed? && r.value.rooms == sess.db.rooms && r.value.guests == sess.db.guests
  {
    var saved := SaveChanges(sess);
    Reply(saved.outcome, saved.value.db)
  }
}

=== FILE: entities.dfy ===
/**
 * The two persisted entities.  A room owns its guests only through
 * `Guest.roomId`; the navigation collections are derived by query and are
 * not stored.
 */
module Entities {
  import opened Calendar

  datatype Option<T> = None | Some(value: T)

  /** A row of the Rooms table; `kind` is the free-form room type ("Standard", "Suite", ...). */
  datatype Room = Room(id: int, number: string, floor: int, kind: string)

  /** A row of the Guests table. */
  datatype Guest = Guest(
    id: int,
    firstName: string,
    lastName: string,
    dob: CivilDate,
    address: string,
    nationality: string,
    checkIn: Ticks,
    checkOut: Ticks,
    roomId: int)

  function RoomKey(r: Room): int { r.id }

  function GuestKey(g: Guest): int { g.id }
}

=== FILE: guest_controller.dfy ===
/**
 * The guest controller: maps requests onto the guest service and its
 * outcomes onto status codes.
 */
module GuestController {
  import opened Entities
  import opened Database
  import opened GuestDtos
  import opened Http
  import GuestService

  /** The DTOs of a listing of guests, in the same order. */
  function ToDtos(guests: seq<Guest>): (dtos: seq<GuestDto>)
    ensures |dtos| == |guests|
    ensures forall i | 0 <= i < |guests| :: dtos[i] == ToDto(guests[i])
    ensures forall d :: d in dtos <==> ToEntity(d) in guests
  {
    var dtos := seq(|guests|, i requires 0 <= i < |guests| => ToDto(guests[i]));
    DtosListed(guests, dtos);
    dtos
  }

  lemma DtosListed(guests: seq<Guest>, dtos: seq<GuestDto>)
    requires |dtos| == |guests|
    requires forall i | 0 <= i < |guests| :: dtos[i] == ToDto(guests[i])
    ensures forall d :: d in dtos <==> ToEntity(d) in guests
  {
  }

  /** `GET api/guest`: every stored guest as a DTO. */
  function GetGuests(s: Store): (r: ActionResult<seq<GuestDto>>)
    ensures r.OkObject?
    ensures |r.value| == |s.guests|
    ensures forall d :: d in r.value <==> ToEntity(d) in s.guests.Values
  {
    OkObject(ToDtos(GuestService.GetAllGuests(s)))
  }

  /** `GET api/guest/{id}`: NotFound for an absent id, the guest's DTO otherwise. */
  function GetGuest(s: Store, id: int): (r: ActionResult<GuestDto>)
    requires Consistent(s)
    ensures id !in s.guests <==> r.NotFoundResult?
    ensures id in s.guests ==> r == OkObject(ToDto(s.guests[id]))
  {
    match GuestService.GetGuestById(s, id)
    case None => NotFoundResult
    case Some(g) => OkObject(ToDto(g))
  }

  /**
   * `POST api/guest`: a null body is BadRequest.  Otherwise the eight
   * non-key fields become a new guest; on success the answer is Created
   * with the body carrying the generated id, and any service failure is
   * BadRequest with its message.
   */
  function CreateGuest(s: Store, body: Option<GuestDto>): (r: Handled<GuestDto>)
    requires Consistent(s)
    ensures Consistent(r.store)
    ensures body.None? ==> r == Handled(BadRequest(None), s)
    ensures body.Some? ==>
      && (r.result.CreatedAt? <==> s.nextGuestId !in s.guests && GuestService.Admissible(s, ToNewGuest(body.value)))
      && (r.result.CreatedAt? ==>
            && r.result.id == s.nextGuestId
            && r.result.id !in s.guests
            && r.result.value == body.value.(id := r.result.id)
            && r.store.guests == s.guests[r.result.id := ToEntity(r.result.value)]
            && r.store.rooms == s.rooms)
      && (!r.result.CreatedAt? ==>
            && r.result == BadRequest(Some(ConstraintMessage))
            && r.store.guests == s.guests
            && r.store.rooms == s.rooms)
      && r.store.nextGuestId == s.nextGuestId + 1
      && r.store.nextRoomId == s.nextRoomId
  {
    match body
    case None => Handled(BadRequest(None), s)
    case Some(dto) =>
      var created := GuestService.CreateGuest(s, Some(ToNewGuest(dto)));
      if created.outcome.Success? then
        Handled(CreatedAt(created.id, dto.(id := created.id)), created.store)
      else
        Handled(BadRequest(ErrorText(created.outcome)), created.store)
  }

  /**
   * `PUT api/guest/{id}`: BadRequest for a null body or a body whose id
   * differs from the path; NotFound for an absent id; otherwise every field
   * is overwritten and the answer is NoContent, or BadRequest with the
   * message when the database refuses the row.
   */
  function UpdateGuest(s: Store, id: int, body: Option<GuestDto>): (r: Handled<GuestDto>)
    requires Consistent(s)
    ensures Consistent(r.store)
    ensures body.None? || body.value.id != id ==> r == Handled(BadRequest(None), s)
    ensures body.Some? && body.value.id == id && id !in s.guests ==> r == Handled(NotFoundResult, s)
    ensures body.Some? && body.value.id == id && id in s.guests ==>
      if GuestService.Admissible(s, ToEntity(body.value)) then
        r == Handled(NoContent, s.(guests := s.guests[id := ToEntity(body.value)]))
      else
        r == Handled(BadRequest(Some(ConstraintMessage)), s)
  {
    match body
    case None => Handled(BadRequest(None), s)
    case Some(dto) =>
      if id != dto.id then Handled(BadRequest(None), s)
      else match GuestService.GetGuestById(s, id)
        case None => Handled(NotFoundResult, s)
        case Some(_) =>
          var updated := GuestService.UpdateGuest(s, Some(ToEntity(dto)));
          if updated.outcome.Success? then Handled(NoContent, updated.value)
          else Handled(BadRequest(ErrorText(updated.outcome)), updated.value)
  }

  /** `DELETE api/guest/{id}`: NotFound for an absent id; otherwise the guest is removed and the answer is NoContent. */
  function DeleteGuest(s: Store, id: int): (r: Handled<GuestDto>)
    requires Consistent(s)
    ensures Consistent(r.store)
    ensures id !in s.guests ==> r == Handled(NotFoundResult, s)
    ensures id in s.guests ==> r == Handled(NoContent, s.(guests := s.guests - {id}))
  {
    match GuestService.GetGuestById(s, id)
    case None => Handled(NotFoundResult, s)
    case Some(_) =>
      var deleted := GuestService.DeleteGuest(s, id);
      if deleted.outcome.Success? then Handled(NoContent, deleted.value)
      else Handled(BadRequest(ErrorText(deleted.outcome)), deleted.value)
  }

  /**
   * A body that passes validation, naming an existing room, is created
   * whenever the next identity value is free.
   */
  lemma ValidBodyIsCreated(s: Store, dto: GuestDto)
    requires Consistent(s)
    requires ValidGuestDto(dto) && dto.roomId in s.rooms
    requires s.nextGuestId !in s.guests
    ensures CreateGuest(s, Some(dto)).result == CreatedAt(s.nextGuestId, dto.(id := s.nextGuestId))
  {
  }
}

=== FILE: guest_dto.dfy ===
/**
 * The guest data-transfer object: the wire form of a guest, its
 * validation attributes, the values derived from it for display (full name,
 * stay length, age) and the field copies between it and the entity.
 */
module GuestDtos {
  import opened Calendar
  import opened Entities
  import opened Database

  datatype GuestDto = GuestDto(
    id: int,
    firstName: string,
    lastName: string,
    dob: CivilDate,
    address: string,
    nationality: string,
    checkIn: Ticks,
    checkOut: Ticks,
    roomId: int)

  function GuestDtoKey(d: GuestDto): int { d.id }

  /** `FullName`: the first name, one space, the last name. */
  function FullName(d: GuestDto): (s: string)
    ensures |s| == |d.firstName| + 1 + |d.lastName|
    ensures s[..|d.firstName|] == d.firstName
    ensures s[|d.firstName|] == ' '
    ensures s[|d.firstName| + 1..] == d.lastName
  {
    d.firstName + " " + d.lastName
  }

  /** `TimeSpan.Days`: whole days in a tick count, truncated toward zero. */
  function WholeDays(ticks: int): (days: int)
    ensures ticks >= 0 ==> days >= 0 && days * TicksPerDay <= ticks < (days + 1) * TicksPerDay
    ensures ticks < 0 ==> days <= 0 && (days - 1) * TicksPerDay < ticks <= days * TicksPerDay
  {
    if ticks >= 0 then ticks / TicksPerDay else -((-ticks) / TicksPerDay)
  }

  /**
   * `StayDuration`: whole days from check-in to check-out.  Nothing orders
   * the two dates, so it is negative exactly when check-out lies at least a
   * full day before check-in.
   */
  function StayDuration(d: GuestDto): (days: int)
    ensures d.checkOut >= d.checkIn ==> days >= 0
    ensures days < 0 <==> d.checkIn - d.checkOut >= TicksPerDay
    ensures d.checkOut >= d.checkIn ==> days * TicksPerDay <= d.checkOut - d.checkIn < (days + 1) * TicksPerDay
    ensures d.checkOut < d.checkIn ==> (days - 1) * TicksPerDay < d.checkOut - d.checkIn <= days * TicksPerDay
  {
    WholeDays(d.checkOut - d.checkIn)
  }

  /** The `n`-th birthday of someone born on `dob`, as a (year, month, day) triple. */
  function Anniversary(dob: Date, n: int): Date {
    Date(dob.year + n, dob.month, dob.day)
  }

  /**
   * `CalculateAge`: years between the dates, less one when the birthday
   * (shifted back by that many years from today) is still ahead.  The result
   * is the number of the last birthday on or before today: that birthday has
   * come and the next has not.
   */
  function CalculateAge(dob: CivilDate, today: CivilDate): (age: int)
    ensures NotAfter(Anniversary(dob, age), today)
    ensures Before(today, Anniversary(dob, age + 1))
    ensures NotAfter(dob, today) ==> age >= 0
  {
    var age := today.year - dob.year;
    var shifted := AddYears(today, -age);
    assert shifted.year == dob.year;
    assert Before(shifted, dob) <==> Before(Date(dob.year, today.month, today.day), dob) by {
      if shifted.day != today.day {
        assert today.month == 2 && today.day == 29 && !IsLeapYear(dob.year);
      }
    }
    if Before(shifted, dob) then age - 1 else age
  }

  /** `Age`, evaluated on `today`. */
  function Age(d: GuestDto, today: CivilDate): (age: int)
    ensures NotAfter(Anniversary(d.dob, age), today) && Before(today, Anniversary(d.dob, age + 1))
    ensures NotAfter(d.dob, today) ==> age >= 0
  {
    CalculateAge(d.dob, today)
  }

  /** As today advances, the age never decreases. */
  lemma AgeNeverDecreases(dob: CivilDate, today: CivilDate, later: CivilDate)
    requires NotAfter(today, later)
    ensures CalculateAge(dob, today) <= CalculateAge(dob, later)
  {
  }

  /** Characters `char.IsWhiteSpace` accepts in the Latin-1 range. */
  predicate IsWhiteSpace(c: char) {
    c == ' ' || ('\t' <= c <= '\r') || c == '\U{0085}' || c == '\U{00A0}'
  }

  /** `[Required]` on a string: present and not only white space. */
  predicate Present(s: string) {
    exists i | 0 <= i < |s| :: !IsWhiteSpace(s[i])
  }

  /** Every validation attribute of the DTO holds. */
  predicate ValidGuestDto(d: GuestDto) {
    && Present(d.firstName) && |d.firstName| <= FirstNameMaxLength
    && Present(d.lastName) && |d.lastName| <= LastNameMaxLength
    && Present(d.address) && |d.address| <= AddressMaxLength
    && Present(d.nationality)
  }

  function Required(field: string, value: string): seq<string> {
    if Present(value) then [] else ["The " + field + " field is required."]
  }

  function MaxLength(value: string, limit: int, message: string): seq<string> {
    if |value| <= limit then [] else [message]
  }

  /** The model-state errors, property by property in declaration order. */
  function ValidationErrors(d: GuestDto): (errors: seq<string>)
    ensures |errors| == 0 <==> ValidGuestDto(d)
    ensures |d.firstName| > FirstNameMaxLength <==> "First name cannot exceed 200 characters" in errors
    ensures |d.lastName| > LastNameMaxLength <==> "Last name cannot exceed 400 characters" in errors
    ensures |d.address| > AddressMaxLength <==> "Address cannot exceed 600 characters" in errors
  {
    Required("FirstName", d.firstName)
    + MaxLength(d.firstName, FirstNameMaxLength, "First name cannot exceed 200 characters")
    + Required("LastName", d.lastName)
    + MaxLength(d.lastName, LastNameMaxLength, "Last name cannot exceed 400 characters")
    + Required("Address", d.address)
    + MaxLength(d.address, AddressMaxLength, "Address cannot exceed 600 characters")
    + Required("Nationality", d.nationality)
  }

  /** The projection of a guest onto a DTO: all nine fields copied unchanged. */
  function ToDto(g: Guest): (d: GuestDto)
    ensures d.id == g.id && d.roomId == g.roomId
    ensures d.firstName == g.firstName && d.lastName == g.lastName && d.address == g.address
    ensures d.dob == g.dob && d.nationality == g.nationality
    ensures d.checkIn == g.checkIn && d.checkOut == g.checkOut
  {
    GuestDto(g.id, g.firstName, g.lastName, g.dob, g.address, g.nationality, g.checkIn, g.checkOut, g.roomId)
  }

  /** The entity built from a DTO for an update: all nine fields copied unchanged. */
  function ToEntity(d: GuestDto): (g: Guest)
    ensures ToDto(g) == d
  {
    Guest(d.id, d.firstName, d.lastName, d.dob, d.address, d.nationality, d.checkIn, d.checkOut, d.roomId)
  }

  /**
   * The entity built from a DTO for a create: the eight fields besides the
   * Id, which stays 0 so that the database assigns it.  A DTO that passes
   * validation fits the columns of the Guests table.
   */
  function ToNewGuest(d: GuestDto): (g: Guest)
    ensures g.id == 0
    ensures ToDto(g) == d.(id := 0)
    ensures ValidGuestDto(d) ==> FitsColumns(g)
  {
    Guest(0, d.firstName, d.lastName, d.dob, d.address, d.nationality, d.checkIn, d.checkOut, d.roomId)
  }

  /** Entity to DTO and back loses nothing. */
  lemma EntityRoundTrip(g: Guest)
    ensures ToEntity(ToDto(g)) == g
  {
  }
}

=== FILE: guest_repository.dfy ===
/**
 * The guest repository: generic staged changes on a unit of work, and the
 * guest queries (by room, current on a day, whether a room has guests).
 * Queries read the committed tables.
 */
module GuestRepository {
  import opened Calendar
  import opened Entities
  import opened Listing
  import opened Database

  /** `GetAll`: every committed guest exactly once, by ascending id. */
  function GetAll(sess: Session): (gs: seq<Guest>)
    ensures |gs| == |sess.db.guests|
    ensures forall g :: g in gs <==> g in sess.db.guests.Values
    ensures KeysMatch(sess.db) ==> Ascending(gs, GuestKey)
  {
    AllGuests(sess.db)
  }

  function GetById(sess: Session, id: int): (r: Option<Guest>)
    requires Consistent(sess.db)
    ensures r.Some? <==> id in sess.db.guests
    ensures r.Some? ==> r.value == sess.db.guests[id]
  {
    FindGuest(sess.db, id)
  }

  /** `Add`: a null entity is refused and nothing is staged; otherwise an INSERT is staged. */
  function Add(sess: Session, entity: Option<Guest>): (r: Reply<Session>)
    ensures entity.None? ==> r.outcome == ArgumentNull("entity") && r.value == sess
    ensures entity.Some? ==> r.outcome.Success? && r.value == StageAddGuest(sess, entity.value)
  {
    match entity
    case None => Reply(ArgumentNull("entity"), sess)
    case Some(guest) => Reply(Success, StageAddGuest(sess, guest))
  }

  /**
   * `Update`: a null entity is refused.  Attaching an entity whose Id is 0
   * tracks it as a new row with a temporary key, and switching such an
   * entry to Modified throws; the entry stays tracked as new, so the INSERT
   * is staged all the same.  Any other Id stages an overwrite of every
   * column of that row.
   */
  function Update(sess: Session, entity: Option<Guest>): (r: Reply<Session>)
    ensures entity.None? ==> r.outcome == ArgumentNull("entity") && r.value == sess
    ensures entity.Some? && entity.value.id == 0 ==>
      r.outcome == TemporaryKey("Guest") && r.value == StageAddGuest(sess, entity.value)
    ensures entity.Some? && entity.value.id != 0 ==> r.outcome.Success? && r.value == StageReplaceGuest(sess, entity.value)
  {
    match entity
    case None => Reply(ArgumentNull("entity"), sess)
    case Some(guest) =>
      if guest.id == 0 then Reply(TemporaryKey("Guest"), StageAddGuest(sess, guest))
      else Reply(Success, StageReplaceGuest(sess, guest))
  }

  /**
   * On a fresh unit of work, `Update` of a guest with Id 0 followed by
   * `SaveChanges` reports the exception from `Update` yet inserts the guest
   * under the next identity value, provided the row is otherwise valid.
   */
  lemma UpdateOfNewGuestInserts(db: Store, guest: Guest)
    requires Consistent(db)
    requires guest.id == 0 && db.nextGuestId !in db.guests
    requires FitsColumns(guest) && guest.roomId in db.rooms
    ensures Update(Open(db), Some(guest)).outcome == TemporaryKey("Guest")
    ensures var saved := SaveChanges(Update(Open(db), Some(guest)).value);
      && saved.outcome.Success?
      && saved.value.db.guests == db.guests[db.nextGuestId := guest.(id := db.nextGuestId)]
      && saved.value.db.rooms == db.rooms
  {
  }

  /**
   * `Delete(Guest)` of an entity the context does not track: a null entity is
   * refused.  Attaching an entity whose Id is 0 marks it as a new row, and
   * removing a new row only forgets it, so nothing is staged; any other Id
   * stages a DELETE of its row.
   */
  function Delete(sess: Session, entity: Option<Guest>): (r: Reply<Session>)
    ensures entity.None? ==> r.outcome == ArgumentNull("entity") && r.value == sess
    ensures entity.Some? && entity.value.id == 0 ==> r.outcome.Success? && r.value == sess
    ensures entity.Some? && entity.value.id != 0 ==> r.outcome.Success? && r.value == StageRemoveGuest(sess, entity.value.id)
  {
    match entity
    case None => Reply(ArgumentNull("entity"), sess)
    case Some(guest) =>
      if guest.id == 0 then Reply(Success, sess)
      else Reply(Success, StageRemoveGuest(sess, guest.id))
  }

  /**
   * `Delete(int)`: an id with no committed guest changes nothing.  Otherwise
   * the query hands back the tracked instance of that row, so removing it
   * stages a DELETE of the row unless one is already staged: an entry that
   * is already Deleted stays Deleted, and the row is deleted once.
   */
  function DeleteById(sess: Session, id: int): (r: Session)
    requires Consistent(sess.db)
    ensures id !in sess.db.guests ==> r == sess
    ensures id in sess.db.guests && id in sess.staged.guests ==> r == StageRemoveGuest(sess, id)
    ensures id in sess.db.guests && id !in sess.staged.guests ==> r == sess
  {
    match GetById(sess, id)
    case None => sess
    case Some(guest) =>
      if guest.id in sess.staged.guests then StageRemoveGuest(sess, guest.id) else sess
  }

  /** Deleting by id twice in one unit of work saves exactly what deleting once saves. */
  lemma DeleteByIdTwice(db: Store, id: int)
    requires Consistent(db)
    ensures DeleteById(DeleteById(Open(db), id), id) == DeleteById(Open(db), id)
    ensures id in db.guests ==>
      var saved := SaveChanges(DeleteById(DeleteById(Open(db), id), id));
      && (saved.outcome.Success? <==> Consistent(db.(guests := db.guests - {id})))
      && (saved.outcome.Success? ==> saved.value.db.guests == db.guests - {id})
  {
  }

  /** `GetGuestsByRoomId`: exactly the guests booked into that room, by ascending id. */
  function GetGuestsByRoomId(s: Store, roomId: int): (gs: seq<Guest>)
    ensures forall g :: g in gs <==> g in s.guests.Values && g.roomId == roomId
    ensures KeysMatch(s) ==> Ascending(gs, GuestKey)
  {
    var all := AllGuests(s);
    FilterAscending(all, (g: Guest) => g.roomId == roomId, GuestKey);
    Filter(all, (g: Guest) => g.roomId == roomId)
  }

  /** A guest is current on `today` when the stay covers it, both ends included. */
  predicate IsCurrent(g: Guest, today: Ticks) {
    g.checkIn <= today && g.checkOut >= today
  }

  /** `GetCurrentGuests`: exactly the guests whose stay covers `today`, by ascending id. */
  function GetCurrentGuests(s: Store, today: Ticks): (gs: seq<Guest>)
    ensures forall g :: g in gs <==> g in s.guests.Values && IsCurrent(g, today)
    ensures KeysMatch(s) ==> Ascending(gs, GuestKey)
  {
    var all := AllGuests(s);
    FilterAscending(all, (g: Guest) => IsCurrent(g, today), GuestKey);
    Filter(all, (g: Guest) => IsCurrent(g, today))
  }

  /** `RoomHasGuests`: some guest names the room; the same as a non-empty `GetGuestsByRoomId`. */
  function RoomHasGuests(s: Store, roomId: int): (b: bool)
    ensures b <==> |GetGuestsByRoomId(s, roomId)| > 0
  {
    ListedExactlyWhenReferenced(s, roomId);
    Referenced(s, roomId)
  }

  lemma ListedExactlyWhenReferenced(s: Store, roomId: int)
    ensures |GetGuestsByRoomId(s, roomId)| > 0 <==> Referenced(s, roomId)
  {
    var gs := GetGuestsByRoomId(s, roomId);
    if |gs| > 0 {
      var g := gs[0];
      assert g in s.guests.Values;
      if forall k | k in s.guests :: s.guests[k] != g {
        assert false;
      }
      var k :| k in s.guests && s.guests[k] == g;
      assert s.guests[k].roomId == roomId;
    }
    if Referenced(s, roomId) {
      var k :| k in s.guests && s.guests[k].roomId == roomId;
      assert s.guests[k] in gs;
    }
  }

  /** A current guest's room has guests. */
  lemma CurrentGuestOccupiesRoom(s: Store, today: Ticks, g: Guest)
    requires g in GetCurrentGuests(s, today)
    ensures RoomHasGuests(s, g.roomId)
  {
  }
}

=== FILE: guest_service.dfy ===
/**
 * The guest service: reads and changes the Guests table directly through
 * the database context, one `SaveChanges` per change.
 */
module GuestService {
  import opened Entities
  import opened Database
  import opened Text

  /** `GetAllGuests`: every stored guest, each once. */
  function GetAllGuests(s: Store): (gs: seq<Guest>)
    ensures |gs| == |s.guests|
    ensures forall g :: g in gs <==> g in s.guests.Values
  {
    AllGuests(s)
  }

  /** `GetGuestById`: the stored guest for a present id, null for an absent one. */
  function GetGuestById(s: Store, id: int): (r: Option<Guest>)
    requires Consistent(s)
    ensures r.Some? <==> id in s.guests
    ensures r.Some? ==> r.value == s.guests[id] && r.value.id == id
  {
    FindGuest(s, id)
  }

  function NotFoundMessage(id: int): string {
    "Guest with ID " + IntToString(id) + " not found."
  }

  /** What the database accepts as a guest row, apart from its key. */
  predicate Admissible(s: Store, g: Guest) {
    FitsColumns(g) && g.roomId in s.rooms
  }

  /**
   * `CreateGuest`: a null guest is refused.  Otherwise the guest is
   * inserted under the next identity value (or its own non-zero Id); the
   * insert commits exactly when that key is free, the names and address fit
   * their columns and the room exists.
   */
  function CreateGuest(s: Store, guest: Option<Guest>): (r: Inserted)
    requires Consistent(s)
    ensures Consistent(r.store)
    ensures guest.None? ==> r.outcome == ArgumentNull("guest") && r.store == s
    ensures guest.Some? ==>
      var key := GuestKeyOnInsert(s, guest.value);
      && r.id == key
      && (r.outcome.Success? <==> key !in s.guests && Admissible(s, guest.value))
      && (r.outcome.Success? ==>
            && r.store.guests == s.guests[key := guest.value.(id := key)]
            && r.store.rooms == s.rooms)
      && (!r.outcome.Success? ==>
            && r.outcome == SaveFailed(ConstraintMessage)
            && r.store.rooms == s.rooms
            && r.store.guests == s.guests)
      && r.store.nextGuestId == s.nextGuestId + (if guest.value.id == 0 then 1 else 0)
      && r.store.nextRoomId == s.nextRoomId
  {
    match guest
    case None => Inserted(ArgumentNull("guest"), s, 0)
    case Some(entity) =>
      var key := GuestKeyOnInsert(s, entity);
      var sess := StageAddGuest(Open(s), entity);
      assert key !in s.guests && Admissible(s, entity) ==> Consistent(sess.staged);
      assert !Admissible(s, entity) && key !in s.guests ==> !Consistent(sess.staged) by {
        if !Admissible(s, entity) && key !in s.guests {
          assert sess.staged.guests[key] == entity.(id := key);
        }
      }
      var saved := Commit(sess);
      Inserted(saved.outcome, saved.value, key)
  }

  /** The eight assignments of `UpdateGuest`: every field but the Id comes from `source`. */
  function Overwrite(existing: Guest, source: Guest): (g: Guest)
    ensures g.id == existing.id
    ensures existing.id == source.id ==> g == source
  {
    existing.(
      firstName := source.firstName,
      lastName := source.lastName,
      dob := source.dob,
      address := source.address,
      nationality := source.nationality,
      checkIn := source.checkIn,
      checkOut := source.checkOut,
      roomId := source.roomId)
  }

  /** Replacing a stored guest keeps the store consistent exactly when the new row is admissible. */
  lemma ReplaceAdmissible(s: Store, g: Guest)
    requires Consistent(s)
    requires g.id in s.guests
    ensures Consistent(s.(guests := s.guests[g.id := g])) <==> Admissible(s, g)
  {
    var t := s.(guests := s.guests[g.id := g]);
    if !Admissible(s, g) {
      assert t.guests[g.id] == g;
    }
  }

  /**
   * `UpdateGuest`: a null guest is refused, an unknown Id is NotFound;
   * otherwise all eight fields besides the Id are overwritten, which
   * commits exactly when the new row is admissible.
   */
  function UpdateGuest(s: Store, guest: Option<Guest>): (r: Reply<Store>)
    requires Consistent(s)
    ensures Consistent(r.value)
    ensures guest.None? ==> r.outcome == ArgumentNull("guest") && r.value == s
    ensures guest.Some? && guest.value.id !in s.guests ==>
      r.outcome == NotFound(NotFoundMessage(guest.value.id)) && r.value == s
    ensures guest.Some? && guest.value.id in s.guests ==>
      && (r.outcome.Success? <==> Admissible(s, guest.value))
      && (r.outcome.Success? ==> r.value == s.(guests := s.guests[guest.value.id := guest.value]))
      && (!r.outcome.Success? ==> r.outcome == SaveFailed(ConstraintMessage) && r.value == s)
  {
    match guest
    case None => Reply(ArgumentNull("guest"), s)
    case Some(entity) =>
      match FindGuest(s, entity.id)
      case None => Reply(NotFound(NotFoundMessage(entity.id)), s)
      case Some(existing) =>
        var updated := Overwrite(existing, entity);
        ReplaceAdmissible(s, updated);
        var sess := StageReplaceGuest(Open(s), updated);
        Commit(sess)
  }

  /** `DeleteGuest`: an unknown id is NotFound; otherwise exactly that guest is removed. */
  function DeleteGuest(s: Store, id: int): (r: Reply<Store>)
    requires Consistent(s)
    ensures Consistent(r.value)
    ensures id !in s.guests ==> r.outcome == NotFound(NotFoundMessage(id)) && r.value == s
    ensures id in s.guests ==>
      && r.outcome.Success?
      && r.value == s.(guests := s.guests - {id})
      && FindGuest(r.value, id).None?
  {
    match FindGuest(s, id)
    case None => Reply(NotFound(NotFoundMessage(id)), s)
    case Some(_) =>
      RemoveKeepsConsistent(s, id);
      Commit(StageRemoveGuest(Open(s), id))
  }

  /** Removing a guest keeps every constraint, and a later lookup finds nothing. */
  lemma RemoveKeepsConsistent(s: Store, id: int)
    requires Consistent(s)
    ensures Consistent(s.(guests := s.guests - {id}))
    ensures FindGuest(s.(guests := s.guests - {id}), id).None?
  {
  }
}

=== FILE: http.dfy ===
/**
 * What a controller action answers: the ASP.NET Core result kinds the two
 * controllers return, and the store the action leaves behind.
 */
module Http {
  import opened Entities
  import opened Database

  datatype ActionResult<T> =
    | OkObject(value: T)                  // 200 with a body
    | CreatedAt(id: int, value: T)        // 201 pointing at the Get action for `id`
    | NoContent                           // 204
    | BadRequest(message: Option<string>) // 400, with the exception message when there is one
    | NotFoundResult                      // 404

  /** `ex.Message` of the exception a failed outcome stands for. */
  function ErrorText(o: Outcome): (text: Option<string>)
    ensures text.None? <==> o.Success?
    ensures text.Some? ==> text.value == Message(o)
  {
    if o.Success? then None else Some(Message(o))
  }

  datatype Handled<T> = Handled(result: ActionResult<T>, store: Store)
}

=== FILE: listing.dfy ===
/**
 * Turning the key set of a table into a listing, and filtering listings.
 * A query without ORDER BY returns rows in an order the database chooses;
 * this model lists every table by ascending primary key.
 */
module Listing {

  /** Keys strictly increase along the sequence, so no element appears twice. */
  predicate Ascending<T>(xs: seq<T>, key: T -> int) {
    forall i, j | 0 <= i < j < |xs| :: key(xs[i]) < key(xs[j])
  }

  /** No element occurs twice. */
  predicate Distinct<T(==)>(xs: seq<T>) {
    forall i, j | 0 <= i < j < |xs| :: xs[i] != xs[j]
  }

  lemma HasElement(ks: set<int>)
    requires ks != {}
    ensures exists k :: k in ks
  {
    if forall k :: k !in ks {
      assert false;
    }
  }

  lemma {:induction false} MinExists(ks: set<int>)
    requires ks != {}
    ensures exists m :: m in ks && forall k | k in ks :: m <= k
    decreases |ks|
  {
    HasElement(ks);
    var x :| x in ks;
    var rest := ks - {x};
    if rest == {} {
      assert ks == {x};
    } else {
      MinExists(rest);
      var m :| m in rest && forall k | k in rest :: m <= k;
      var least := if x < m then x else m;
      forall k | k in ks
        ensures least <= k
      {
        if k != x {
          assert k in rest;
        }
      }
      assert least in ks;
    }
  }

  function Min(ks: set<int>): (m: int)
    requires ks != {}
    ensures m in ks
    ensures forall k | k in ks :: m <= k
  {
    MinExists(ks);
    var m :| m in ks && forall k | k in ks :: m <= k;
    m
  }

  /** The keys of a table in ascending order, each exactly once. */
  function SortedKeys(ks: set<int>): (r: seq<int>)
    ensures |r| == |ks|
    ensures forall k :: k in r <==> k in ks
    ensures Ascending(r, (k: int) => k)
    decreases |ks|
  {
    if ks == {} then []
    else
      var m := Min(ks);
      var rest := SortedKeys(ks - {m});
      [m] + rest
  }

  /** `Where(p)` over a listing: keeps the elements satisfying `p`, in their original order. */
  function Filter<T(!new)>(xs: seq<T>, p: T -> bool): (r: seq<T>)
    ensures |r| <= |xs|
    ensures forall x :: x in r <==> x in xs && p(x)
    ensures forall i | 0 <= i < |r| :: p(r[i])
  {
    if |xs| == 0 then []
    else if p(xs[0]) then [xs[0]] + Filter(xs[1..], p)
    else Filter(xs[1..], p)
  }

  /** `Where` repeats no element that the listing did not repeat. */
  lemma {:induction false} FilterDistinct<T(!new)>(xs: seq<T>, p: T -> bool)
    requires Distinct(xs)
    ensures Distinct(Filter(xs, p))
  {
    if |xs| > 0 {
      var tail := xs[1..];
      assert Distinct(tail);
      FilterDistinct(tail, p);
      assert xs[0] !in tail;
    }
  }

  /** `Where` keeps a listing ordered by `key` in that order. */
  lemma {:induction false} FilterAscending<T(!new)>(xs: seq<T>, p: T -> bool, key: T -> int)
    ensures Ascending(xs, key) ==> Ascending(Filter(xs, p), key)
  {
    if |xs| > 0 && Ascending(xs, key) {
      var tail := xs[1..];
      assert Ascending(tail, key);
      FilterAscending(tail, p, key);
      var r := Filter(tail, p);
      assert forall i | 0 <= i < |r| :: r[i] in tail;
      assert forall i | 0 <= i < |r| :: key(xs[0]) < key(r[i]) by {
        forall i | 0 <= i < |r|
          ensures key(xs[0]) < key(r[i])
        {
          var j :| 0 <= j < |tail| && tail[j] == r[i];
          assert xs[j + 1] == tail[j];
        }
      }
    }
  }
}

=== FILE: room_controller.dfy ===
/**
 * The room controller: maps requests onto the room and guest services,
 * projects each room with its occupancy, and maps outcomes onto status codes.
 */
module RoomController {
  import opened Calendar
  import opened Entities
  import opened Listing
  import opened Database
  import opened GuestDtos
  import opened Http
  import RoomService
  import GuestService
  import GuestRepository

  /** The wire form of a room, with the occupancy fields filled in by the controller. */
  datatype RoomDto = RoomDto(
    id: int,
    number: string,
    floor: int,
    kind: string,
    isOccupied: bool,
    guestCount: int,
    currentGuests: seq<GuestDto>)

  /**
   * The guests the controller lists for a room: those booked into it whose
   * check-out is not before `today`.  Check-in is not tested, so a booking
   * that starts later already counts.
   */
  predicate Listed(room: Room, g: Guest, today: Ticks) {
    g.roomId == room.id && g.checkOut >= today
  }

  function RoomDtoKey(d: RoomDto): int { d.id }

  /**
   * The occupancy projection of one room against all guests.  Its listed
   * guests are exactly the DTOs of the guests that pass the filter, in the
   * order of `guests` and each once when `guests` holds each once, so the
   * count is the number of such guests.
   */
  function Project(room: Room, guests: seq<Guest>, today: Ticks): (d: RoomDto)
    ensures d.id == room.id && d.number == room.number && d.floor == room.floor && d.kind == room.kind
    ensures d.guestCount == |d.currentGuests|
    ensures d.isOccupied <==> d.guestCount > 0
    ensures forall i | 0 <= i < |d.currentGuests| :: d.currentGuests[i].roomId == room.id
    ensures forall g | g in guests :: Listed(room, g, today) <==> ToDto(g) in d.currentGuests
    ensures forall i | 0 <= i < |d.currentGuests| ::
      exists g | g in guests :: Listed(room, g, today) && d.currentGuests[i] == ToDto(g)
    ensures Distinct(guests) ==> Distinct(d.currentGuests)
    ensures Ascending(guests, GuestKey) ==> Ascending(d.currentGuests, GuestDtoKey)
  {
    var current := Filter(guests, (g: Guest) => Listed(room, g, today));
    var dtos := seq(|current|, i requires 0 <= i < |current| => ToDto(current[i]));
    ProjectionListsExactly(room, guests, today, current, dtos);
    RoomDto(room.id, room.number, room.floor, room.kind, |current| > 0, |current|, dtos)
  }

  lemma ProjectionListsExactly(room: Room, guests: seq<Guest>, today: Ticks, current: seq<Guest>, dtos: seq<GuestDto>)
    requires current == Filter(guests, (g: Guest) => Listed(room, g, today))
    requires |dtos| == |current|
    requires forall i | 0 <= i < |current| :: dtos[i] == ToDto(current[i])
    ensures forall i | 0 <= i < |dtos| :: dtos[i].roomId == room.id
    ensures forall g | g in guests :: Listed(room, g, today) <==> ToDto(g) in dtos
    ensures forall i | 0 <= i < |dtos| :: exists g | g in guests :: Listed(room, g, today) && dtos[i] == ToDto(g)
    ensures Distinct(guests) ==> Distinct(dtos)
    ensures Ascending(guests, GuestKey) ==> Ascending(dtos, GuestDtoKey)
  {
    forall i | 0 <= i < |dtos|
      ensures exists g | g in guests :: Listed(room, g, today) && dtos[i] == ToDto(g)
    {
      assert current[i] in current;
    }
    if Distinct(guests) {
      FilterDistinct(guests, (g: Guest) => Listed(room, g, today));
      forall i, j | 0 <= i < j < |dtos|
        ensures dtos[i] != dtos[j]
      {
        EntityRoundTrip(current[i]);
        EntityRoundTrip(current[j]);
      }
    }
    if Ascending(guests, GuestKey) {
      FilterAscending(guests, (g: Guest) => Listed(room, g, today), GuestKey);
    }
  }

  /**
   * `GET api/room`: every stored room's projection against all guests, one
   * per room, in ascending room id.
   */
  function GetRooms(s: Store, today: Ticks): (r: ActionResult<seq<RoomDto>>)
    ensures r.OkObject?
    ensures |r.value| == |s.rooms|
    ensures forall d | d in r.value :: exists room | room in s.rooms.Values :: d == Project(room, AllGuests(s), today)
    ensures forall room | room in s.rooms.Values :: Project(room, AllGuests(s), today) in r.value
    ensures KeysMatch(s) ==> Ascending(r.value, RoomDtoKey)
  {
    var rooms := RoomService.GetAllRooms(s);
    var guests := GuestService.GetAllGuests(s);
    var dtos := seq(|rooms|, i requires 0 <= i < |rooms| => Project(rooms[i], guests, today));
    EveryRoomProjected(s, today, rooms, dtos);
    OkObject(dtos)
  }

  lemma EveryRoomProjected(s: Store, today: Ticks, rooms: seq<Room>, dtos: seq<RoomDto>)
    requires rooms == AllRooms(s)
    requires |dtos| == |rooms|
    requires forall i | 0 <= i < |rooms| :: dtos[i] == Project(rooms[i], AllGuests(s), today)
    ensures forall room | room in s.rooms.Values :: Project(room, AllGuests(s), today) in dtos
    ensures KeysMatch(s) ==> Ascending(dtos, RoomDtoKey)
  {
  }

  /** `GET api/room/{id}`: NotFound for an absent id, the room's projection otherwise. */
  function GetRoom(s: Store, id: int, today: Ticks): (r: ActionResult<RoomDto>)
    requires Consistent(s)
    ensures id !in s.rooms <==> r.NotFoundResult?
    ensures id in s.rooms ==> r == OkObject(Project(s.rooms[id], AllGuests(s), today))
  {
    match RoomService.GetRoomById(s, id)
    case None => NotFoundResult
    case Some(room) => OkObject(Project(room, GuestService.GetAllGuests(s), today))
  }

  /**
   * `POST api/room`: a null body is BadRequest.  Otherwise Number, Floor and
   * Type become a new room, and the answer is Created with the generated id,
   * no occupancy and no current guests, or BadRequest with the message.
   */
  function CreateRoom(s: Store, body: Option<RoomDto>): (r: Handled<RoomDto>)
    requires Consistent(s)
    ensures Consistent(r.store)
    ensures body.None? ==> r == Handled(BadRequest(None), s)
    ensures body.Some? ==>
      && (r.result.CreatedAt? <==> s.nextRoomId !in s.rooms)
      && (r.result.CreatedAt? ==>
            && r.result.id == s.nextRoomId
            && r.result.value == body.value.(id := s.nextRoomId, isOccupied := false, guestCount := 0, currentGuests := [])
            && r.store.rooms == s.rooms[s.nextRoomId := Room(s.nextRoomId, body.value.number, body.value.floor, body.value.kind)]
            && r.store.guests == s.guests)
      && (!r.result.CreatedAt? ==>
            && r.result == BadRequest(Some(ConstraintMessage))
            && r.store.rooms == s.rooms
            && r.store.guests == s.guests)
      && r.store.nextRoomId == s.nextRoomId + 1
      && r.store.nextGuestId == s.nextGuestId
  {
    match body
    case None => Handled(BadRequest(None), s)
    case Some(dto) =>
      var created := RoomService.CreateRoom(s, Some(Room(0, dto.number, dto.floor, dto.kind)));
      if created.outcome.Success? then
        var answer := dto.(id := created.id, isOccupied := false, guestCount := 0, currentGuests := []);
        Handled(CreatedAt(created.id, answer), created.store)
      else
        Handled(BadRequest(ErrorText(created.outcome)), created.store)
  }

  /**
   * `PUT api/room/{id}`: BadRequest for a null body or a body whose id
   * differs from the path, checked before anything else; NotFound for an
   * absent id; otherwise Number, Floor and Type are overwritten and the
   * answer is NoContent.
   */
  function UpdateRoom(s: Store, id: int, body: Option<RoomDto>): (r: Handled<RoomDto>)
    requires Consistent(s)
    ensures Consistent(r.store)
    ensures body.None? || body.value.id != id ==> r == Handled(BadRequest(None), s)
    ensures body.Some? && body.value.id == id && id !in s.rooms ==> r == Handled(NotFoundResult, s)
    ensures body.Some? && body.value.id == id && id in s.rooms ==>
      r == Handled(NoContent, s.(rooms := s.rooms[id := Room(id, body.value.number, body.value.floor, body.value.kind)]))
  {
    match body
    case None => Handled(BadRequest(None), s)
    case Some(dto) =>
      if id != dto.id then Handled(BadRequest(None), s)
      else match RoomService.GetRoomById(s, id)
        case None => Handled(NotFoundResult, s)
        case Some(_) =>
          var updated := RoomService.UpdateRoom(s, Some(Room(dto.id, dto.number, dto.floor, dto.kind)));
          if updated.outcome.Success? then Handled(NoContent, updated.value)
          else Handled(BadRequest(ErrorText(updated.outcome)), updated.value)
  }

  /**
   * `DELETE api/room/{id}`: NotFound for an absent id; BadRequest carrying
   * the service's message for a room that still has guests; otherwise the
   * room is removed and the answer is NoContent.
   */
  function DeleteRoom(s: Store, id: int): (r: Handled<RoomDto>)
    requires Consistent(s)
    ensures Consistent(r.store)
    ensures id !in s.rooms ==> r == Handled(NotFoundResult, s)
    ensures id in s.rooms && Referenced(s, id) ==> r == Handled(BadRequest(Some(RoomService.HasGuestsMessage(id))), s)
    ensures id in s.rooms && !Referenced(s, id) ==> r == Handled(NoContent, s.(rooms := s.rooms - {id}))
  {
    match RoomService.GetRoomById(s, id)
    case None => Handled(NotFoundResult, s)
    case Some(_) =>
      var deleted := RoomService.DeleteRoom(s, id);
      if deleted.outcome.Success? then Handled(NoContent, deleted.value)
      else Handled(BadRequest(ErrorText(deleted.outcome)), deleted.value)
  }

  /**
   * Every guest the repository reports as current in a room is among the
   * room's projected guests; the two agree when no guest of the room has a
   * check-in after `today`.
   */
  lemma ProjectionCoversCurrentGuests(s: Store, room: Room, today: Ticks)
    ensures forall g | g in GuestRepository.GetCurrentGuests(s, today) && g.roomId == room.id ::
      ToDto(g) in Project(room, AllGuests(s), today).currentGuests
    ensures (forall g | g in s.guests.Values && g.roomId == room.id :: g.checkIn <= today) ==>
      forall g | g in s.guests.Values ::
        (ToDto(g) in Project(room, AllGuests(s), today).currentGuests
         <==> g in GuestRepository.GetCurrentGuests(s, today) && g.roomId == room.id)
  {
  }
}

=== FILE: room_repository.dfy ===
/**
 * The room repository: generic staged changes on a unit of work, and the
 * room queries (by floor, availability over a closed date interval).
 * Queries read the committed tables.
 */
module RoomRepository {
  import opened Calendar
  import opened Entities
  import opened Listing
  import opened Database
  import GuestRepository

  /** `GetAll`: every committed room exactly once, by ascending id. */
  function GetAll(sess: Session): (rs: seq<Room>)
    ensures |rs| == |sess.db.rooms|
    ensures forall r :: r in rs <==> r in sess.db.rooms.Values
    ensures KeysMatch(sess.db) ==> Ascending(rs, RoomKey)
  {
    AllRooms(sess.db)
  }

  function GetById(sess: Session, id: int): (r: Option<Room>)
    requires Consistent(sess.db)
    ensures r.Some? <==> id in sess.db.rooms
    ensures r.Some? ==> r.value == sess.db.rooms[id]
  {
    FindRoom(sess.db, id)
  }

  /** `Add`: a null entity is refused and nothing is staged; otherwise an INSERT is staged. */
  function Add(sess: Session, entity: Option<Room>): (r: Reply<Session>)
    ensures entity.None? ==> r.outcome == ArgumentNull("entity") && r.value == sess
    ensures entity.Some? ==> r.outcome.Success? && r.value == StageAddRoom(sess, entity.value)
  {
    match entity
    case None => Reply(ArgumentNull("entity"), sess)
    case Some(room) => Reply(Success, StageAddRoom(sess, room))
  }

  /**
   * `Update`: a null entity is refused.  Attaching an entity whose Id is 0
   * tracks it as a new row with a temporary key, and switching such an
   * entry to Modified throws; the entry stays tracked as new, so the INSERT
   * is staged all the same.  Any other Id stages an overwrite of every
   * column of that row.
   */
  function Update(sess: Session, entity: Option<Room>): (r: Reply<Session>)
    ensures entity.None? ==> r.outcome == ArgumentNull("entity") && r.value == sess
    ensures entity.Some? && entity.value.id == 0 ==>
      r.outcome == TemporaryKey("Room") && r.value == StageAddRoom(sess, entity.value)
    ensures entity.Some? && entity.value.id != 0 ==> r.outcome.Success? && r.value == StageReplaceRoom(sess, entity.value)
  {
    match entity
    case None => Reply(ArgumentNull("entity"), sess)
    case Some(room) =>
      if room.id == 0 then Reply(TemporaryKey("Room"), StageAddRoom(sess, room))
      else Reply(Success, StageReplaceRoom(sess, room))
  }

  /**
   * The tracker's temporary key does not stop the insert: on a fresh unit of
   * work, `Update` of a room with Id 0 followed by `SaveChanges` reports the
   * exception from `Update` yet inserts the room under the next identity
   * value.
   */
  lemma UpdateOfNewRoomInserts(db: Store, room: Room)
    requires Consistent(db)
    requires room.id == 0 && db.nextRoomId !in db.rooms
    ensures Update(Open(db), Some(room)).outcome == TemporaryKey("Room")
    ensures var saved := SaveChanges(Update(Open(db), Some(room)).value);
      && saved.outcome.Success?
      && saved.value.db.rooms == db.rooms[db.nextRoomId := room.(id := db.nextRoomId)]
      && saved.value.db.guests == db.guests
  {
  }

  /**
   * `Delete(Room)` of an entity the context does not track: a null entity is
   * refused.  Attaching an entity whose Id is 0 marks it as a new row, and
   * removing a new row only forgets it, so nothing is staged; any other Id
   * stages a DELETE of its row.
   */
  function Delete(sess: Session, entity: Option<Room>): (r: Reply<Session>)
    ensures entity.None? ==> r.outcome == ArgumentNull("entity") && r.value == sess
    ensures entity.Some? && entity.value.id == 0 ==> r.outcome.Success? && r.value == sess
    ensures entity.Some? && entity.value.id != 0 ==> r.outcome.Success? && r.value == StageRemoveRoom(sess, entity.value.id)
  {
    match entity
    case None => Reply(ArgumentNull("entity"), sess)
    case Some(room) =>
      if room.id == 0 then Reply(Success, sess)
      else Reply(Success, StageRemoveRoom(sess, room.id))
  }

  /**
   * `Delete(int)`: an id with no committed room changes nothing.  Otherwise
   * the query hands back the tracked instance of that row, so removing it
   * stages a DELETE of the row unless one is already staged: an entry that
   * is already Deleted stays Deleted, and the row is deleted once.
   */
  function DeleteById(sess: Session, id: int): (r: Session)
    requires Consistent(sess.db)
    ensures id !in sess.db.rooms ==> r == sess
    ensures id in sess.db.rooms && id in sess.staged.rooms ==> r == StageRemoveRoom(sess, id)
    ensures id in sess.db.rooms && id !in sess.staged.rooms ==> r == sess
  {
    match GetById(sess, id)
    case None => sess
    case Some(room) =>
      if room.id in sess.staged.rooms then StageRemoveRoom(sess, room.id) else sess
  }

  /** Deleting by id twice in one unit of work saves exactly what deleting once saves. */
  lemma DeleteByIdTwice(db: Store, id: int)
    requires Consistent(db)
    ensures DeleteById(DeleteById(Open(db), id), id) == DeleteById(Open(db), id)
    ensures id in db.rooms ==>
      var saved := SaveChanges(DeleteById(DeleteById(Open(db), id), id));
      && (saved.outcome.Success? <==> Consistent(db.(rooms := db.rooms - {id})))
      && (saved.outcome.Success? ==> saved.value.db.rooms == db.rooms - {id})
  {
  }

  /** `GetRoomsByFloor`: exactly the rooms on that floor, by ascending id. */
  function GetRoomsByFloor(s: Store, floor: int): (rs: seq<Room>)
    ensures forall r :: r in rs <==> r in s.rooms.Values && r.floor == floor
    ensures KeysMatch(s) ==> Ascending(rs, RoomKey)
  {
    var all := AllRooms(s);
    FilterAscending(all, (r: Room) => r.floor == floor, RoomKey);
    Filter(all, (r: Room) => r.floor == floor)
  }

  /**
   * A stay blocks the interval [start, end] when it begins no later than
   * `end` and ends no earlier than `start`: both ends are closed, so a
   * check-out on `start` itself still blocks.
   */
  predicate Overlaps(g: Guest, start: Ticks, end: Ticks) {
    g.checkIn <= end && g.checkOut >= start
  }

  /**
   * `IsRoomAvailable`: no guest of that room has a stay overlapping
   * [start, end]; equivalently, no guest `GetGuestsByRoomId` lists for it
   * overlaps.
   */
  predicate IsRoomAvailable(s: Store, roomId: int, start: Ticks, end: Ticks): (b: bool)
    ensures b <==> forall g | g in GuestRepository.GetGuestsByRoomId(s, roomId) :: !Overlaps(g, start, end)
  {
    !exists k | k in s.guests :: s.guests[k].roomId == roomId && Overlaps(s.guests[k], start, end)
  }

  /**
   * The distinct RoomIds of the guests whose stay overlaps [start, end]:
   * exactly the rooms `IsRoomAvailable` rejects, so the set query behind
   * `GetAvailableRooms` and the per-room check agree.
   */
  function OccupiedRoomIds(s: Store, start: Ticks, end: Ticks): (ids: set<int>)
    ensures forall id :: id in ids <==> !IsRoomAvailable(s, id, start, end)
  {
    set k | k in s.guests && Overlaps(s.guests[k], start, end) :: s.guests[k].roomId
  }

  /**
   * `GetAvailableRooms`: all rooms minus those with an overlapping guest.
   * A room is listed exactly when it is stored and `IsRoomAvailable` holds
   * for it, so the two queries agree; the listing keeps the order of all
   * rooms and so holds no room twice.
   */
  function GetAvailableRooms(s: Store, start: Ticks, end: Ticks): (rs: seq<Room>)
    ensures |rs| <= |s.rooms|
    ensures forall r :: r in rs <==> r in s.rooms.Values && IsRoomAvailable(s, r.id, start, end)
    ensures KeysMatch(s) ==> Ascending(rs, RoomKey)
  {
    var all := AllRooms(s);
    var busy := OccupiedRoomIds(s, start, end);
    FilterAscending(all, (r: Room) => r.id !in busy, RoomKey);
    Filter(all, (r: Room) => r.id !in busy)
  }

  /** Availability over an interval carries over to every interval inside it. */
  lemma AvailableWithin(s: Store, roomId: int, start: Ticks, end: Ticks, start': Ticks, end': Ticks)
    requires IsRoomAvailable(s, roomId, start, end)
    requires start <= start' && end' <= end
    ensures IsRoomAvailable(s, roomId, start', end')
  {
  }

  /** A stay that ends exactly when the requested interval starts still makes the room unavailable. */
  lemma CheckOutDayBlocks(s: Store, k: int, end: Ticks)
    requires k in s.guests
    requires s.guests[k].checkIn <= end
    ensures !IsRoomAvailable(s, s.guests[k].roomId, s.guests[k].checkOut, end)
  {
  }
}

=== FILE: room_service.dfy ===
/**
 * The room service: reads and changes the Rooms table directly through the
 * database context, one `SaveChanges` per change.
 */
module RoomService {
  import opened Entities
  import opened Database
  import opened Text

  /** `GetAllRooms`: every stored room, each once. */
  function GetAllRooms(s: Store): (rs: seq<Room>)
    ensures |rs| == |s.rooms|
    ensures forall r :: r in rs <==> r in s.rooms.Values
  {
    AllRooms(s)
  }

  /** `GetRoomById`: the stored room for a present id, null for an absent one. */
  function GetRoomById(s: Store, id: int): (r: Option<Room>)
    requires Consistent(s)
    ensures r.Some? <==> id in s.rooms
    ensures r.Some? ==> r.value == s.rooms[id] && r.value.id == id
  {
    FindRoom(s, id)
  }

  function NotFoundMessage(id: int): string {
    "Room with ID " + IntToString(id) + " not found."
  }

  function HasGuestsMessage(id: int): string {
    "Cannot delete room with ID " + IntToString(id) + " because it has associated guests."
  }

  /** The refusal to delete a room names the room and says why. */
  lemma HasGuestsMessageNamesRoom(id: int)
    ensures Contains(HasGuestsMessage(id), IntToString(id))
    ensures Contains(HasGuestsMessage(id), " because it has associated guests.")
  {
    ConcatContains("Cannot delete room with ID ", IntToString(id), " because it has associated guests.");
  }

  /** Two refusals read the same only when they are about the same room. */
  lemma HasGuestsMessageIdentifiesRoom(a: int, b: int)
    requires HasGuestsMessage(a) == HasGuestsMessage(b)
    ensures a == b
  {
    var head := "Cannot delete room with ID ";
    var x, y := IntToString(a), IntToString(b);
    assert |x| == |y|;
    assert x == HasGuestsMessage(a)[|head|..|head| + |x|];
    assert y == HasGuestsMessage(b)[|head|..|head| + |y|];
    IntToStringInjective(a, b);
  }

  /**
   * `CreateRoom`: a null room is refused.  Otherwise the room is inserted
   * under the next identity value (or under its own non-zero Id), which
   * succeeds exactly when that key is not yet taken.
   */
  function CreateRoom(s: Store, room: Option<Room>): (r: Inserted)
    requires Consistent(s)
    ensures Consistent(r.store)
    ensures room.None? ==> r.outcome == ArgumentNull("room") && r.store == s
    ensures room.Some? ==>
      var key := RoomKeyOnInsert(s, room.value);
      && r.id == key
      && (r.outcome.Success? <==> key !in s.rooms)
      && (r.outcome.Success? ==>
            && r.store.rooms == s.rooms[key := Room(key, room.value.number, room.value.floor, room.value.kind)]
            && r.store.guests == s.guests)
      && (!r.outcome.Success? ==>
            && r.outcome == SaveFailed(ConstraintMessage)
            && r.store.rooms == s.rooms
            && r.store.guests == s.guests)
      && r.store.nextRoomId == s.nextRoomId + (if room.value.id == 0 then 1 else 0)
      && r.store.nextGuestId == s.nextGuestId
  {
    match room
    case None => Inserted(ArgumentNull("room"), s, 0)
    case Some(entity) =>
      var key := RoomKeyOnInsert(s, entity);
      var saved := Commit(StageAddRoom(Open(s), entity));
      Inserted(saved.outcome, saved.value, key)
  }

  /**
   * `UpdateRoom`: a null room is refused, an unknown Id is NotFound;
   * otherwise Number, Floor and Type of that one room are overwritten.
   */
  function UpdateRoom(s: Store, room: Option<Room>): (r: Reply<Store>)
    requires Consistent(s)
    ensures Consistent(r.value)
    ensures room.None? ==> r.outcome == ArgumentNull("room") && r.value == s
    ensures room.Some? && room.value.id !in s.rooms ==>
      r.outcome == NotFound(NotFoundMessage(room.value.id)) && r.value == s
    ensures room.Some? && room.value.id in s.rooms ==>
      && r.outcome.Success?
      && r.value == s.(rooms := s.rooms[room.value.id := room.value])
  {
    match room
    case None => Reply(ArgumentNull("room"), s)
    case Some(entity) =>
      match FindRoom(s, entity.id)
      case None => Reply(NotFound(NotFoundMessage(entity.id)), s)
      case Some(existing) =>
        var updated := existing.(number := entity.number, floor := entity.floor, kind := entity.kind);
        Commit(StageReplaceRoom(Open(s), updated))
  }

  /**
   * `DeleteRoom`: an unknown id is NotFound, a room some guest still
   * references is refused, any other room is removed.
   */
  function DeleteRoom(s: Store, id: int): (r: Reply<Store>)
    requires Consistent(s)
    ensures Consistent(r.value)
    ensures id !in s.rooms ==> r.outcome == NotFound(NotFoundMessage(id)) && r.value == s
    ensures id in s.rooms && Referenced(s, id) ==>
      r.outcome == Conflict(HasGuestsMessage(id)) && r.value == s
    ensures id in s.rooms && !Referenced(s, id) ==>
      && r.outcome.Success?
      && r.value == s.(rooms := s.rooms - {id})
      && FindRoom(r.value, id).None?
  {
    match FindRoom(s, id)
    case None => Reply(NotFound(NotFoundMessage(id)), s)
    case Some(_) =>
      if Referenced(s, id) then Reply(Conflict(HasGuestsMessage(id)), s)
      else
        RemoveUnreferenced(s, id);
        Commit(StageRemoveRoom(Open(s), id))
  }

  /** Removing a room no guest names keeps every constraint, the foreign key included. */
  lemma RemoveUnreferenced(s: Store, id: int)
    requires Consistent(s)
    requires !Referenced(s, id)
    ensures Consistent(s.(rooms := s.rooms - {id}))
    ensures FindRoom(s.(rooms := s.rooms - {id}), id).None?
  {
  }
}

=== FILE: scenarios.dfy ===
/**
 * Concrete situations that pin down how the date tests behave at their
 * edges: one room, one guest.
 */
module Scenarios {
  import opened Calendar
  import opened Entities
  import opened Database
  import opened GuestDtos
  import RoomRepository
  import GuestRepository
  import RoomController

  const Suite: Room := Room(1, "101", 1, "Suite")

  function Booked(checkIn: Ticks, checkOut: Ticks): Guest {
    Guest(1, "Ada", "Lovelace", Date(1990, 1, 1), "Main Street 1", "British", checkIn, checkOut, 1)
  }

  function OneBooking(checkIn: Ticks, checkOut: Ticks): (s: Store)
    ensures Consistent(s)
  {
    Store(map[1 := Suite], map[1 := Booked(checkIn, checkOut)], 2, 2)
  }

  /**
   * A stay from 10 to 15 blocks a request from 15 to 20, since the two
   * intervals share their end point, and leaves a request from 16 to 20 free.
   */
  lemma SharedEndPointBlocks()
    ensures !RoomRepository.IsRoomAvailable(OneBooking(10, 15), 1, 15, 20)
    ensures RoomRepository.IsRoomAvailable(OneBooking(10, 15), 1, 16, 20)
    ensures RoomRepository.GetAvailableRooms(OneBooking(10, 15), 16, 20) == [Suite]
  {
  }

  /**
   * A booking that starts after `today` already marks the room occupied in
   * the room listing, while the repository does not count it as current.
   */
  lemma FutureBookingCountsAsOccupied()
    ensures RoomController.Project(Suite, [Booked(20, 30)], 10).isOccupied
    ensures GuestRepository.GetCurrentGuests(OneBooking(20, 30), 10) == []
  {
  }
}

=== FILE: text.dfy ===
/**
 * Decimal rendering of integers, as C# string interpolation (`$"{id}"`)
 * writes them into exception messages, and a substring predicate used to
 * state what those messages mention.
 */
module Text {

  predicate IsDigit(c: char) {
    '0' <= c <= '9'
  }

  predicate AllDigits(s: string) {
    forall i | 0 <= i < |s| :: IsDigit(s[i])
  }

  function DigitChar(d: int): (c: char)
    requires 0 <= d < 10
    ensures IsDigit(c) && c as int - '0' as int == d
  {
    ('0' as int + d) as char
  }

  /** The value of a string of decimal digits, most significant first. */
  function ParseDigits(s: string): nat
    requires AllDigits(s)
  {
    if |s| == 0 then 0
    else ParseDigits(s[..|s| - 1]) * 10 + (s[|s| - 1] as int - '0' as int)
  }

  /** Shape of what `Int32.ToString()` produces: an optional minus sign and at least one digit. */
  predicate IsIntLiteral(s: string) {
    && |s| > 0
    && (s[0] == '-' ==> |s| > 1 && AllDigits(s[1..]))
    && (s[0] != '-' ==> AllDigits(s))
  }

  function ParseInt(s: string): int
    requires IsIntLiteral(s)
  {
    if s[0] == '-' then 0 - ParseDigits(s[1..]) else ParseDigits(s)
  }

  /** Canonical decimal form of a natural number: no leading zero unless the number is zero. */
  function NatToString(n: nat): (s: string)
    ensures |s| > 0 && AllDigits(s)
    ensures ParseDigits(s) == n
    ensures s[0] == '0' ==> n == 0
    ensures n == 0 ==> s == "0"
    decreases n
  {
    if n < 10 then [DigitChar(n)]
    else
      var prefix := NatToString(n / 10);
      var s := prefix + [DigitChar(n % 10)];
      assert s[..|s| - 1] == prefix;
      s
  }

  /** Decimal form of an integer; reading it back yields the same integer, so distinct ids give distinct texts. */
  function IntToString(n: int): (s: string)
    ensures IsIntLiteral(s)
    ensures ParseInt(s) == n
  {
    if n < 0 then
      var digits := NatToString(-n);
      var s := "-" + digits;
      assert s[1..] == digits;
      s
    else NatToString(n)
  }

  lemma IntToStringInjective(a: int, b: int)
    requires IntToString(a) == IntToString(b)
    ensures a == b
  {
  }

  predicate OccursAt(s: string, part: string, i: int) {
    0 <= i && i + |part| <= |s| && s[i..i + |part|] == part
  }

  /** `s.Contains(part)` in C#. */
  predicate Contains(s: string, part: string) {
    exists i | 0 <= i <= |s| - |part| :: OccursAt(s, part, i)
  }

  /** Every piece of a three-part concatenation occurs in it. */
  lemma ConcatContains(a: string, b: string, c: string)
    ensures Contains(a + b + c, a)
    ensures Contains(a + b + c, b)
    ensures Contains(a + b + c, c)
  {
    var s := a + b + c;
    assert OccursAt(s, a, 0) by { assert s[0..|a|] == a; }
    assert OccursAt(s, b, |a|) by { assert s[|a|..|a| + |b|] == b; }
    assert OccursAt(s, c, |a| + |b|) by { assert s[|a| + |b|..|s|] == c; }
  }
}
